=== FILE: README.md ===
# Marketing attribution dashboard — a Dafny model

The dashboard is a Flask service (`app.py`) with a single-page browser
controller (`static/js/app.js`).

- **`POST /run_attribution`** runs six rule-based attribution models over a
  log of user touchpoints: last touch, first touch, last non-direct, linear,
  U-shaped and position decay. It adds a Markov column and combines the
  seven models' weightages per channel with their mean. It also returns
  analytics: totals, the overall conversion rate and per-channel statistics.
- **`POST /optimize_budget`** splits a budget across the channels in
  proportion to their mean attribution. It caps the channels that have a
  limit, then hands out what the cuts freed to the channels that are
  unlimited or still below their limit.
- **The controller** keeps the last successful attribution result set. It
  runs both calls with busy/idle buttons, refuses to optimise before results
  exist, and renders the results and statistics tables. It generates one
  limit input per channel, with the id `limit_` plus the channel name whose
  whitespace runs become `_`. It assembles the budget request from those
  inputs and shows the allocation as cards. It owns four charts, and each
  chart builder destroys the chart in its variable before creating a new one.

The model is in these modules:

| module | what it holds |
|---|---|
| `Tables` (`tables.dfy`) | JSON objects and pandas Series as association lists in iteration order; sums; weightage percentages |
| `Journeys` (`journeys.dfy`) | the log rows, each user's conversion journey, rank within it, and the linear, U-shaped and position-decay credit rules |
| `Models` (`models.dfy`) | the per-channel totals of each rule-based model, and which row each picker counts |
| `Report` (`report.dfy`) | combining the seven models, channel statistics, and the whole attribution reply |
| `Allocator` (`allocator.dfy`) | the budget allocator as written, a corrected allocator, and the optimize handler |
| `Protocol` (`protocol.dfy`) | the values exchanged between controller and server, and the three reply shapes the controller sees |
| `LimitIds` (`limit_ids.dfy`) | the limit-input id rule |
| `Views` (`views.dfy`) | what the controller derives from replies: rows, chart data, limit inputs, the budget request, the budget cards |
| `Charts` (`charts.dfy`) | the four chart variables and the destroy-then-create discipline |
| `Controller` (`controller.dfy`) | the page state machine: the click handlers split into a Start step and a Complete step, the typing actions, and the invariant between actions |
| `Tabs` (`tabs.dfy`) | tab switching |

Numbers are exact reals. The order in which Python iterates the set of all
channels is a parameter, `order`. It fixes the order of the server's
dictionaries, not of the JSON the browser receives (see "Left out"). So are the Markov column, the traceback
text and the text of a browser parse error.

## Model

| member | source | states |
|---|---|---|
| Tables.WeightageSumsTo100 | app.py:36-37 | a non-zero column's weightages keep its keys, in order, and sum to exactly 100 |
| Tables.WeightageBounds | app.py:36-37 | each weightage is the entry's value times 100 over the column total; for a non-negative column it lies in [0, 100] |
| Tables.ColumnSumIsTotal | app.py:223-231 | looking every channel of `order` up in a column, with 0 for the channels it lacks, sums to the column total |
| Journeys.RankInJourney | app.py:79-80 | a conversion row's rank is its 1-based position in its user's journey, between 1 and the journey length |
| Journeys.RankIncreases | app.py:80 | a later row of the same user has a strictly higher rank |
| Journeys.LinearUserTotal | app.py:66-69 | linear credits of any converting user sum to exactly 1 |
| Journeys.UShapedTouch | app.py:82-88 | U-shaped credit is 1 for a single touch, 0.4 at either end, 0.2/(count-2) in the middle, and always in (0, 1] |
| Journeys.UShapedUserTotal | app.py:78-91 | U-shaped credits of a user sum to 1, except for a two-touch journey, where they sum to 0.8 |
| Journeys.DecayRawUserTotal | app.py:104-109 | the raw decay weights 2^(count-rank) of a user sum to 2^count - 1 |
| Journeys.DecayUserTotal | app.py:104-111 | the normalised position-decay credits of a user sum to exactly 1 |
| Journeys.DecayHalves | app.py:104-110 | each touch receives twice the credit of the next touch in the same journey |
| Journeys.DecayFirstTouchWeighsMost | app.py:104-110 | the first touch of a journey receives at least as much credit as any other touch of it |
| Models.ChannelTotals | app.py:69 | grouping by channel gives exactly the channels present, each once |
| Models.ChannelTotalsLookup | app.py:69 | a channel's group total is the sum of the column over that channel's rows |
| Models.ChannelTotalsConserve | app.py:69 | grouping by channel neither loses nor adds credit: the group totals sum to the column sum |
| Models.ChannelTotalsPositive | app.py:69-70 | positive credits give positive group totals; there are groups iff there are rows |
| Models.CountByChannelSpec | app.py:36 | value counts cover the channels present, are positive, and sum to the number of rows |
| Models.FirstPerUser | app.py:44-45 | the first-row-per-user selection keeps exactly one row per user present, and that row is the user's first |
| Models.LastTwoJourney | app.py:54-55 | each user's kept rows are exactly the conversion rows among that user's last two rows, in data order |
| Models.LastTwoMembers | app.py:54-55 | a row is kept iff it converts and at most one later row has the same user |
| Models.LastNonDirectPicks | app.py:54-57 | last non-direct counts a user at most once, and does so iff one of the user's last two rows converts; the row counted is the first converting row among the user's last two |
| Models.LastTouchCountsSpec | app.py:35-36 | last-touch counts are each channel's number of conversion rows and sum to the number of conversions |
| Models.ModelColumnsPositive | app.py:35-112 | every rule-based model's column is empty or has a positive total, so its weightage is defined |
| Models.CreditsPositive | app.py:68-110 | every credit rule gives every conversion row a positive credit |
| Report.Combine | app.py:215-232 | one entry per channel of any model, in set order, with each model's weightage or 0 where the model lacks the channel, and the mean of those seven scores |
| Report.MeanOfSeven | app.py:233-234 | the mean lies within any bounds all seven scores respect, and seven times it is their sum |
| Report.MeanColumnSumsTo100 | app.py:215-234 | when every model's weightages sum to 100, so does the `Mean` column |
| Report.StatsFor | app.py:249-260 | a channel's interactions and conversions are the counts of its rows and of its conversion rows; its rate and mean value are those counts' ratio and the conversion values' mean, 0 on an empty denominator |
| Report.Percent | app.py:258 | a count as a percentage of another: 0 when the whole is 0, otherwise `r * whole == part * 100`, within [0, 100] |
| Report.MeanValue | app.py:253 | 0 for no values, otherwise the value whose `count`-fold is the sum |
| Report.StatsRows | app.py:247-260 | the statistics have exactly the result set's channels, in the same order, each with its own statistics |
| Report.RunAttribution | app.py:199-286 | the reply succeeds iff the log is non-empty; an empty log gives a failure carrying `division by zero` and the traceback; a success combines the models, counts every row, conversion and distinct user, gives the overall conversion rate as a percentage within [0, 100], and carries each channel's statistics |
| Protocol.MeanProjection | static/js/app.js:380-383 | the `Mean` of every channel, keyed and ordered as the results |
| Allocator.Weights | app.py:298-300 | the weights keep the channels and their order |
| Allocator.WeightAt | app.py:298-300 | each channel's weight is its mean over the sum of the means, and the weight times that sum gives the mean back |
| Allocator.WeightsTotal | app.py:298-300 | weights of means with a non-zero sum add up to exactly 1 |
| Allocator.ProportionalAt | app.py:302 | each channel's first amount is its weight times the budget |
| Allocator.ProportionalTotal | app.py:302 | the first amounts add up to the weight total times the budget |
| Allocator.FirstSplitTotal | app.py:298-302 | for means with a non-zero sum, the first split hands out exactly the budget |
| Allocator.CappedShare | app.py:302-308 | after capping, each channel holds its weight times the budget, or its limit when that share exceeds a set limit |
| Allocator.CapAt | app.py:305-308 | the capped amount is the amount or, when it exceeds a set limit, the limit; never above either |
| Allocator.Capped | app.py:304-308 | capping keeps the channels, caps each amount and never raises the total |
| Allocator.Redistributed | app.py:310-315 | the channels and order are kept; a channel that is unlimited or below its limit gains its extra amount, a channel at or above its limit keeps what it has |
| Allocator.RedistributedTotal | app.py:310-315 | handing out non-negative extras never raises the total by more than the extras' sum |
| Allocator.Allocate | app.py:298-317 | the allocation covers exactly the requested channels; it is undefined (some amounts NaN or an infinity) iff the means are non-empty and sum to 0 |
| Allocator.AllocateSteps | app.py:298-316 | each channel ends with its capped share, plus its weight times the shortfall when the capped total fell below the budget and the channel is eligible |
| Allocator.AtCapGetsNothing | app.py:313-315 | a channel capped exactly at its limit gets nothing more |
| Allocator.UnlimitedShare | app.py:298-316 | with no limits on the requested channels each channel receives its mean over the sum of the means, times the budget |
| Allocator.UnlimitedAllocation | app.py:298-316 | with no limits on the requested channels the whole budget is handed out |
| Allocator.ForeignLimitsIgnored | app.py:304-315 | limits of channels that are not in the request change nothing |
| Allocator.AllocateWithinBudget | app.py:298-316 | with non-negative means of positive sum the allocation never exceeds the budget |
| Allocator.OptimizeBudget | app.py:289-324 | a missing budget fails with the `float(None)` message; zero-sum means yield an unparseable body; otherwise the reply is the allocation, keyed like the request |
| Allocator.ExceedsLimit | app.py:304-315 | the allocation as written can leave a limited channel above its limit |
| Allocator.TopUpWithinLimit | app.py:313-315 | the corrected top-up never takes a channel past its limit and never gives more than the source's top-up |
| Allocator.AllocateWithinLimits | app.py:298-317 | the corrected allocation covers the same channels and is undefined in the same case |
| Allocator.AllocateWithinLimitsRespectsCaps | app.py:304-315 | under the corrected allocation every limited channel ends within its limit |
| Allocator.AllocateWithinLimitsWithinBudget | app.py:298-316 | the corrected allocation never exceeds the budget either |
| Allocator.WithinLimitsAgrees | app.py:313-315 | where no top-up would pass a limit, the corrected redistribution is the source's |
| LimitIds.Sanitise | static/js/app.js:339 | the sanitised name has no whitespace and is no longer than the name |
| LimitIds.InputId | static/js/app.js:339 | an id is `limit_` followed by a whitespace-free rest |
| LimitIds.SanitiseIdentity | static/js/app.js:339 | a name without whitespace is its own sanitised form |
| LimitIds.SanitiseIdempotent | static/js/app.js:374 | sanitising an already sanitised name changes nothing |
| LimitIds.RunLengthIrrelevant | static/js/app.js:339 | names differing only in the length of a whitespace run get the same id |
| LimitIds.IdsCanCollide | static/js/app.js:374 | two distinct names, one with a whitespace run where the other has `_`, get the same id |
| Views.ResultRows | static/js/app.js:94-110 | one row per results key, in key order, showing the seven model scores then the mean |
| Views.MeanOr0 | static/js/app.js:122 | a channel's mean, or 0 when the results lack the channel |
| Views.StatsRows | static/js/app.js:117-133 | one row per statistics key, in order, with its statistics and its mean or 0 |
| Views.ScatterPoints | static/js/app.js:275-288 | one point per statistics key, at its conversion rate and its mean or 0 |
| Views.ScatterMatchesTable | static/js/app.js:275-288 | the scatter and the statistics table show the same channels, rates and attributions in the same order |
| Views.FallbackUnused | static/js/app.js:122 | when the statistics and results have the same keys, every statistics row shows its own channel's mean |
| Views.AttributionChartData | static/js/app.js:145-154 | the attribution chart has one bar per results key, at that channel's mean |
| Views.ComparisonChartData | static/js/app.js:207-238 | the comparison chart has seven datasets, one per model, labelled by the results keys |
| Views.ChartsMatchTable | static/js/app.js:200-238 | comparison dataset j is column j of the results table, and the attribution bars are its `Mean` column |
| Views.BudgetChartData | static/js/app.js:436-444 | the budget chart has one slice per allocation, in key order |
| Views.LimitFields | static/js/app.js:333-344 | one blank input per channel, in order, labelled by the channel, with the channel's id |
| Views.FindField | static/js/app.js:374 | the lookup finds an input iff some input has the id, and what it finds is the first input in document order with that id |
| Views.LimitsFrom | static/js/app.js:373-378 | a channel has a limit iff its input exists and holds a number; the limit is that number |
| Views.GeneratedFieldsFound | static/js/app.js:374 | every generated input is found again by its channel's id |
| Views.FreshFieldsNoLimits | static/js/app.js:373-378 | freshly generated inputs yield no limits |
| Views.OwnFieldRead | static/js/app.js:373-377 | when ids do not collide, each channel's limit is the number in its own input; a blank input gives none |
| Views.AssembleRequest | static/js/app.js:369-394 | the request carries the budget box, the limits typed for the results' channels, and every channel's mean in results order |
| Views.BudgetCards | static/js/app.js:414-423 | one card per allocation, in order, with its amount; the share is a finite percentage iff the budget is a non-zero number |
| Views.CardSharesSumTo100 | static/js/app.js:421 | the card shares are the allocations' percentages of the budget, and sum to 100 when the allocations sum to the budget |
| Charts.Rebuild | static/js/app.js:141-148 | the new chart is appended and bound to its slot; the old chart of the slot, if any, is destroyed; other slots keep their charts |
| Charts.RebuildReplaces | static/js/app.js:141-148 | a rebuild keeps the registry well formed, destroys only a live chart, leaves no earlier chart of the slot alive and leaves other slots as they were |
| Charts.OneLivePerSlot | static/js/app.js:1-5 | in a well-formed registry each slot has at most one live chart |
| Controller.InitialPage | static/js/app.js:1-5 | the page starts without results, calls, charts, limit inputs, budget cards or notices, and satisfies the invariant |
| Controller.StartAttribution | static/js/app.js:23-38 | the run button goes busy and one attribution call is made; nothing else changes |
| Controller.AttributionErrorText | static/js/app.js:51 | the notice shows the reply's error, or `Unknown error` when it is missing or empty |
| Controller.CompleteAttribution | static/js/app.js:40-63 | whatever the reply, the run button ends idle, and the optimize button, the calls and the budget box are untouched |
| Controller.StartOptimize | static/js/app.js:354-395 | with stored results, the optimize button goes busy and exactly one request is sent, assembled from the results, inputs and budget box |
| Controller.OptimizeErrorText | static/js/app.js:403 | the notice shows the reply's error, or `undefined` when it has none |
| Controller.CompleteOptimize | static/js/app.js:397-411 | whatever the reply, the optimize button ends idle and the results, inputs and calls are untouched |
| Controller.EditLimit | static/js/app.js:338-342 | typing into a limit input changes only that input's value |
| Controller.EditBudget | static/js/app.js:369 | typing into the budget box changes only the box |
| Controller.GateBlocksOptimize | static/js/app.js:355-358 | without results, optimize adds exactly the gate notice and changes nothing else |
| Controller.ResultsOnlyOnSuccess | static/js/app.js:42-55 | the stored results change only on success, then to that reply's results; a failure leaves sections, charts and inputs as they were |
| Controller.AttributionFailureNotice | static/js/app.js:50-55 | a logical failure adds one notice, `Error: ` and the error text; a non-empty traceback goes to the console |
| Controller.AttributionTransportNotice | static/js/app.js:56-58 | a transport failure of the attribution call adds one notice, `Error running attribution models: ` and the failure, sends the failure to the console, and keeps results and charts |
| Controller.OptimizeFailureKeepsDisplay | static/js/app.js:402-406 | a failed budget reply adds exactly one notice (`Error: ` and the error text, or `Error optimizing budget: ` and the failure) and leaves cards, charts and the budget section as they were |
| Controller.ButtonsRestored | static/js/app.js:59-63 | each handler goes busy on entry and is idle after completion, whatever the reply |
| Controller.AttributionChartsShown | static/js/app.js:92-136 | after a successful attribution reply the registry stays well formed, the attribution, comparison and performance charts show that reply's results, and the budget chart is untouched |
| Controller.StepKeepsInvariant | static/js/app.js:23-63 | every action keeps buttons idle, the registry well formed, and the inputs matching the stored results |
| Controller.StepsKeepInvariant | static/js/app.js:354-412 | the invariant holds after any sequence of actions |
| Controller.ResultsPersist | static/js/app.js:42-43 | once stored, results stay stored; without a successful run they do not change |
| Controller.OptimizeSendsTypedLimits | static/js/app.js:369-394 | the request carries every channel's mean and, when ids do not collide, exactly the limits typed into the channels' own inputs |
| Controller.BlankBudgetReported | app.py:292 | a blank budget box ends in the server's `float(None)` error notice, with cards and charts kept |
| Controller.BudgetReplyShown | static/js/app.js:399-401 | after a successful budget reply the budget section is shown, there is one card per allocated channel with that channel's amount, and the budget chart shows the same allocations |
| Controller.OptimizeSucceeds | static/js/app.js:369-394 | with stored results, a number in the budget box and means of non-zero sum, the request the page sends is answered with the allocation of those means, limits and budget |
| Tabs.Click | static/js/app.js:8-20 | exactly the clicked button is active; the shown panel is the first with the tab's id; the handler throws iff no panel has that id |
| Tabs.ClickLeavesOneActive | static/js/app.js:12-18 | after a click at most one button and one panel are active, and the active panel is the clicked tab's |
| Tabs.ClickIdempotent | static/js/app.js:12-18 | clicking the active tab again changes nothing |

## Left out

- The Markov model is not modelled. Its weightage column is an input to
  `Report.RunModels`.
- The Shapley model is not modelled, because the handler never calls it.
- Loading the CSV file, logging, Flask routing and the `/` page are left out.
  They are I/O.
- Report.Combine: does not model the rounding of each weightage and of the
  mean to two decimals. All arithmetic is exact. The sums to 100 hold for
  the unrounded values only.
- Report.StatsFor: does not model the rounding to two decimals of the
  channel's conversion rate and average value.
- Report.RunAttribution: does not model the rounding to two decimals of the
  overall conversion rate, nor that of the statistics.
- Allocator.OptimizeBudget: does not model `round(alloc, 2)`. Its `float(None)`
  message is the wording of Python 3.10 and later; older versions word it
  differently.
- Report.RunAttribution and Allocator.OptimizeBudget: the reply is modelled
  as the Python dictionaries before `jsonify`. The results and channel
  statistics are in the set order `order`, and the allocations are in
  request order. `jsonify` sorts the keys of every object, and `JSON.parse`
  then moves integer-like keys to the front, so the browser sees another
  order. The controller takes each parsed reply as given, and the key order
  the browser iterates is whatever that reply lists. The sort is left out.
  It changes the order in which the browser lists rows, bars and cards, but
  no value.
- The controller's number formatting is left out: `toFixed`,
  `toLocaleString`, the `%` and `$` marks, and the markup.
- Views.LimitFields / Views.GeneratedFieldsFound: the inputs are built by
  writing `id="limit_…"` into `innerHTML` without escaping. The model takes
  each input's id to be `InputId(channel)`. That holds only for channel
  names without `"` and without character references such as `&amp;`.
  For other names the HTML parser ends the attribute early or decodes the
  reference. The input's id then differs, the lookup misses it, and that
  channel's limit is dropped. The HTML parser is not modelled.
- `parseFloat` of a number input is modelled as a value that is blank or a
  number (`Views.FieldValue`). A blank budget box becomes a missing budget.
- pandas `value_counts` sorts a channel table by count, and
  `groupby().sum()` sorts it by channel name. Here tables are in
  first-appearance order. Every consumer looks channels up by key, so the
  order changes no result.
- Missing values in the log are not modelled. `groupby().first()` would skip
  them.
- Controller.CompleteAttribution: does not model an exception thrown while
  rendering a successful reply. In the source that exception reaches the
  `catch` after the results were already stored.
- Controller.OptimizeErrorText: does not model an `error` field holding
  `null`, which the notice would show as `null`.
- Tabs.Click: only the tab panels are searched for the id. `getElementById`
  searches the whole document.
- Interleaving of the two asynchronous handlers is not modelled. Each click
  is run to completion before the next action.
- The analytics summary cards (`static/js/app.js:66-90`) are modelled only
  as the stored `Analytics` value.

## Findings

| source | as written | input that shows it | evidently intended | confidence | as-written member | corrected member |
|---|---|---|---|---|---|---|
| app.py:313-315 | the redistribution gives every channel below its limit `remaining × weight`, whatever that does to the limit | means A = 1, B = 1; budget 1000; limits A 600, B 100: B is cut to 100, and A receives 500 + 400 × 0.5 = 700 | a limited channel never ends above its limit | high, not executed | Allocator.ExceedsLimit | Allocator.AllocateWithinLimits |

=== FILE: allocator.dfy ===
/**
  The budget allocator behind `POST /optimize_budget`: the budget is split in
  proportion to the channels' mean attributions, each limited channel is cut
  back to its limit, and whatever the cuts freed is handed out once more, in
  proportion to the weights, to the channels that are unlimited or still
  below their limit.
 */
module Allocator {
  import opened Tables
  import opened Protocol

  /** `part / whole`: one channel's fraction of a sum. */
  function Fraction(part: real, whole: real): real
    requires whole != 0.0
  {
    part / whole
  }

  /** `weight * amount`: a weight's share of an amount. */
  function Share(weight: real, amount: real): real
  {
    weight * amount
  }

  /** Arithmetic helper for the solver: a fraction scaled back by its whole is the part. */
  lemma FractionBack(part: real, whole: real)
    requires whole != 0.0
    ensures Share(Fraction(part, whole), whole) == part
  {
  }

  /** Arithmetic helper for the solver: a non-negative part of a positive whole is a non-negative fraction. */
  lemma FractionSign(part: real, whole: real)
    requires part >= 0.0 && whole > 0.0
    ensures Fraction(part, whole) >= 0.0
  {
    assert (part / whole) * whole == part;
  }

  /** Arithmetic helper for the solver: non-negative factors give a non-negative share. */
  lemma ShareSign(weight: real, amount: real)
    requires weight >= 0.0 && amount >= 0.0
    ensures Share(weight, amount) >= 0.0
  {
  }

  /** Arithmetic helper for the solver: sharing distributes over a sum of weights. */
  lemma ShareSum(a: real, b: real, amount: real)
    ensures Share(a + b, amount) == Share(a, amount) + Share(b, amount)
  {
  }

  /** Arithmetic helper for the solver: a unit weight shares out the whole amount. */
  lemma UnitShare(weight: real, amount: real)
    requires weight == 1.0
    ensures Share(weight, amount) == amount
  {
  }

  /** Arithmetic helper for the solver: a weight whose share of a non-zero amount is the
      amount itself is 1. */
  lemma UnitFraction(x: real, d: real)
    requires d != 0.0 && Share(x, d) == d
    ensures x == 1.0
  {
    assert (x - 1.0) * d == 0.0;
  }

  /** Each value of `t` as a fraction of `d`. */
  function Scaled(t: Table, d: real): (r: Table)
    requires d != 0.0
    ensures Keys(r) == Keys(t)
  {
    if |t| == 0 then [] else [Entry(t[0].key, Fraction(t[0].value, d))] + Scaled(t[1..], d)
  }

  lemma {:induction false} ScaledAt(t: Table, d: real, i: nat)
    requires d != 0.0 && i < |t|
    ensures Scaled(t, d)[i].value == Fraction(t[i].value, d)
  {
    if i > 0 {
      ScaledAt(t[1..], d, i - 1);
      assert Scaled(t, d)[1..] == Scaled(t[1..], d);
    }
  }

  lemma {:induction false} ScaledTotal(t: Table, d: real)
    requires d != 0.0
    ensures Share(Total(Scaled(t, d)), d) == Total(t)
  {
    if |t| > 0 {
      var r := Scaled(t, d);
      ScaledTotal(t[1..], d);
      assert r[1..] == Scaled(t[1..], d);
      FractionBack(t[0].value, d);
      ShareSum(r[0].value, Total(r[1..]), d);
    }
  }

  /** The normalised weights `mean / sum(means)`. An empty table has no
      weights; a non-empty one whose means sum to zero has none either (the
      division yields NaN there). */
  function Weights(means: Table): (w: Table)
    requires means == [] || Total(means) != 0.0
    ensures Keys(w) == Keys(means)
  {
    if means == [] then [] else Scaled(means, Total(means))
  }

  /** Each weight is its channel's mean as a fraction of the sum of the
      means, so that sharing the sum by it gives the mean back. */
  lemma {:induction false} WeightAt(means: Table, i: nat)
    requires Total(means) != 0.0 && i < |means|
    ensures Weights(means)[i].value == Fraction(means[i].value, Total(means))
    ensures Share(Weights(means)[i].value, Total(means)) == means[i].value
  {
    ScaledAt(means, Total(means), i);
    FractionBack(means[i].value, Total(means));
  }

  /** The weights of a non-empty table sum to one. */
  lemma {:induction false} WeightsTotal(means: Table)
    requires Total(means) != 0.0
    ensures Total(Weights(means)) == 1.0
  {
    var d := Total(means);
    ScaledTotal(means, d);
    UnitFraction(Total(Scaled(means, d)), d);
  }

  /** Non-negative means of positive sum have non-negative weights. */
  lemma {:induction false} WeightsNonNegative(means: Table, i: nat)
    requires Total(means) > 0.0 && i < |means|
    requires forall j :: 0 <= j < |means| ==> means[j].value >= 0.0
    ensures Weights(means)[i].value >= 0.0
  {
    WeightAt(means, i);
    FractionSign(means[i].value, Total(means));
  }

  /** The first split: each weight's share of the budget. */
  function Proportional(w: Table, budget: real): (a: Table)
    ensures Keys(a) == Keys(w)
  {
    if |w| == 0 then [] else [Entry(w[0].key, Share(w[0].value, budget))] + Proportional(w[1..], budget)
  }

  lemma {:induction false} ProportionalAt(w: Table, budget: real, i: nat)
    requires i < |w|
    ensures Proportional(w, budget)[i].value == Share(w[i].value, budget)
  {
    if i > 0 {
      ProportionalAt(w[1..], budget, i - 1);
      assert Proportional(w, budget)[1..] == Proportional(w[1..], budget);
    }
  }

  /** The first split hands out the weights' total share of the budget. */
  lemma {:induction false} ProportionalTotal(w: Table, budget: real)
    ensures Total(Proportional(w, budget)) == Share(Total(w), budget)
  {
    if |w| > 0 {
      var a := Proportional(w, budget);
      ProportionalTotal(w[1..], budget);
      assert a[1..] == Proportional(w[1..], budget);
      ShareSum(w[0].value, Total(w[1..]), budget);
    }
  }

  /** One channel's amount after the cap: its limit if it has one and the
      amount exceeds it, the amount otherwise. */
  function CapAt(k: string, v: real, limits: map<string, real>): (c: real)
    ensures c <= v
    ensures k in limits ==> c <= limits[k]
    ensures c == v || (k in limits && c == limits[k])
  {
    if k in limits && v > limits[k] then limits[k] else v
  }

  /** The capping pass. */
  function Capped(a: Table, limits: map<string, real>): (c: Table)
    ensures Keys(c) == Keys(a)
    ensures forall i :: 0 <= i < |c| ==> c[i].value == CapAt(a[i].key, a[i].value, limits)
    ensures Total(c) <= Total(a)
  {
    if |a| == 0 then []
    else [Entry(a[0].key, CapAt(a[0].key, a[0].value, limits))] + Capped(a[1..], limits)
  }

  /** Whether a channel takes part in the redistribution: it has no limit, or
      it is strictly below it. */
  predicate Eligible(k: string, v: real, limits: map<string, real>)
  {
    k !in limits || v < limits[k]
  }

  /** One channel's amount after the source's redistribution step, where
      `extra` is the remainder times the channel's weight. */
  function TopUp(k: string, v: real, extra: real, limits: map<string, real>): real
  {
    v + (if Eligible(k, v, limits) then extra else 0.0)
  }

  /** The redistribution pass as the source writes it: every eligible channel
      receives its extra, whatever its limit. */
  function Redistributed(c: Table, extras: Table, limits: map<string, real>): (r: Table)
    requires |extras| == |c|
    ensures Keys(r) == Keys(c)
    ensures forall i :: 0 <= i < |r| ==> r[i].value == TopUp(c[i].key, c[i].value, extras[i].value, limits)
  {
    if |c| == 0 then []
    else
      [Entry(c[0].key, TopUp(c[0].key, c[0].value, extras[0].value, limits))]
      + Redistributed(c[1..], extras[1..], limits)
  }

  /** The whole allocation as the source performs it. `None` stands for the
      reply a non-empty table of means summing to zero produces, some of
      whose amounts are NaN or an infinity. The extras of the redistribution are the
      shortfall split by the weights. */
  function Allocate(means: Table, limits: map<string, real>, budget: real): (r: Option<Table>)
    ensures r.None? <==> means != [] && Total(means) == 0.0
    ensures r.Some? ==> Keys(r.value) == Keys(means)
  {
    if means != [] && Total(means) == 0.0 then None
    else
      var w := Weights(means);
      var c := Capped(Proportional(w, budget), limits);
      var total := Total(c);
      if total < budget then Some(Redistributed(c, Proportional(w, budget - total), limits)) else Some(c)
  }

  /** The first two passes, channel by channel: the capped share of a
      channel is its weight's share of the budget, cut back to its limit. */
  lemma {:induction false} CappedShare(w: Table, limits: map<string, real>, budget: real, i: nat)
    requires i < |w|
    ensures Capped(Proportional(w, budget), limits)[i].value == CapAt(w[i].key, Share(w[i].value, budget), limits)
  {
    ProportionalAt(w, budget, i);
  }

  /** Allocate, step by step: every channel ends with its capped share plus,
      when the capped total fell short of the budget and the channel is
      eligible, its weight's share of the shortfall. */
  lemma {:induction false} AllocateSteps(means: Table, limits: map<string, real>, budget: real, i: nat)
    requires Total(means) != 0.0 && i < |means|
    ensures var w := Weights(means);
      var c := Capped(Proportional(w, budget), limits);
      var r := Allocate(means, limits, budget).value;
      r[i].value == if Total(c) < budget then TopUp(means[i].key, c[i].value, Share(w[i].value, budget - Total(c)), limits)
                    else c[i].value
  {
    var w := Weights(means);
    var a := Proportional(w, budget);
    var c := Capped(a, limits);
    if Total(c) < budget {
      var e := Proportional(w, budget - Total(c));
      ProportionalAt(w, budget - Total(c), i);
      assert c[i].key == means[i].key by {
        assert Keys(c)[i] == Keys(a)[i] == Keys(means)[i];
      }
      var r := Redistributed(c, e, limits);
      assert Allocate(means, limits, budget) == Some(r);
      assert r[i].value == TopUp(c[i].key, c[i].value, e[i].value, limits);
    } else {
      assert Allocate(means, limits, budget) == Some(c);
    }
  }

  /** A channel sitting exactly at its limit after the cap receives nothing
      from the redistribution. */
  lemma {:induction false} AtCapGetsNothing(means: Table, limits: map<string, real>, budget: real, i: nat)
    requires Total(means) != 0.0 && i < |means|
    requires var c := Capped(Proportional(Weights(means), budget), limits);
      means[i].key in limits && c[i].value == limits[means[i].key]
    ensures Allocate(means, limits, budget).value[i].value == limits[means[i].key]
  {
    AllocateSteps(means, limits, budget, i);
  }

  /** After the capping pass no limited channel is above its limit. */
  lemma {:induction false} CappedWithinLimits(a: Table, limits: map<string, real>, i: nat)
    requires i < |a| && a[i].key in limits
    ensures Capped(a, limits)[i].value <= limits[a[i].key]
    ensures Capped(a, limits)[i].value == if a[i].value > limits[a[i].key] then limits[a[i].key] else a[i].value
  {
  }

  /** With no limit on any of its channels, the allocation is the plain
      proportional split: each channel gets its mean's fraction of the sum of
      the means, as a share of the budget. */
  lemma {:induction false} UnlimitedShare(means: Table, limits: map<string, real>, budget: real, i: nat)
    requires Total(means) != 0.0 && i < |means|
    requires forall j :: 0 <= j < |means| ==> means[j].key !in limits
    ensures Allocate(means, limits, budget).value[i].value == Share(Fraction(means[i].value, Total(means)), budget)
  {
    UnlimitedIsProportional(means, limits, budget);
    WeightAt(means, i);
    ProportionalAt(Weights(means), budget, i);
  }

  /** ... and it hands out exactly the budget. */
  lemma {:induction false} UnlimitedAllocation(means: Table, limits: map<string, real>, budget: real)
    requires Total(means) != 0.0
    requires forall j :: 0 <= j < |means| ==> means[j].key !in limits
    ensures Total(Allocate(means, limits, budget).value) == budget
  {
    UnlimitedIsProportional(means, limits, budget);
  }

  /** The first split hands out exactly the budget. */
  lemma {:induction false} FirstSplitTotal(means: Table, budget: real)
    requires Total(means) != 0.0
    ensures Total(Proportional(Weights(means), budget)) == budget
  {
    var w := Weights(means);
    WeightsTotal(means);
    ProportionalTotal(w, budget);
    UnitShare(Total(w), budget);
  }

  lemma {:induction false} UnlimitedIsProportional(means: Table, limits: map<string, real>, budget: real)
    requires Total(means) != 0.0
    requires forall i :: 0 <= i < |means| ==> means[i].key !in limits
    ensures Allocate(means, limits, budget) == Some(Proportional(Weights(means), budget))
    ensures Total(Proportional(Weights(means), budget)) == budget
  {
    var w := Weights(means);
    var a := Proportional(w, budget);
    forall i | 0 <= i < |a| ensures a[i].key !in limits {
      assert Keys(a)[i] == Keys(means)[i];
    }
    CappedNoLimits(a, limits);
    FirstSplitTotal(means, budget);
  }

  lemma {:induction false} CappedNoLimits(a: Table, limits: map<string, real>)
    requires forall i :: 0 <= i < |a| ==> a[i].key !in limits
    ensures Capped(a, limits) == a
  {
    if |a| > 0 {
      CappedNoLimits(a[1..], limits);
    }
  }

  /** Two limit maps give a channel the same limit, or both none. */
  predicate SameLimit(k: string, l1: map<string, real>, l2: map<string, real>)
  {
    (k in l1 <==> k in l2) && (k in l1 ==> l1[k] == l2[k])
  }

  /** Limits of channels that are not among the means play no part: two limit
      maps that agree on the means' channels give the same allocation. */
  predicate AgreeOn(keys: seq<string>, l1: map<string, real>, l2: map<string, real>)
  {
    forall i :: 0 <= i < |keys| ==> SameLimit(keys[i], l1, l2)
  }

  lemma {:induction false} ForeignLimitsIgnored(means: Table, l1: map<string, real>, l2: map<string, real>, budget: real)
    requires AgreeOn(Keys(means), l1, l2)
    ensures Allocate(means, l1, budget) == Allocate(means, l2, budget)
  {
    if !(means != [] && Total(means) == 0.0) {
      var w := Weights(means);
      var a := Proportional(w, budget);
      CappedAgree(a, l1, l2);
      var c := Capped(a, l1);
      RedistributedAgree(c, Proportional(w, budget - Total(c)), l1, l2);
    }
  }

  lemma {:induction false} CappedAgree(a: Table, l1: map<string, real>, l2: map<string, real>)
    requires AgreeOn(Keys(a), l1, l2)
    ensures Capped(a, l1) == Capped(a, l2)
  {
    if |a| > 0 {
      assert SameLimit(Keys(a)[0], l1, l2);
      assert Keys(a[1..]) == Keys(a)[1..];
      CappedAgree(a[1..], l1, l2);
    }
  }

  lemma {:induction false} RedistributedAgree(c: Table, extras: Table, l1: map<string, real>, l2: map<string, real>)
    requires |extras| == |c| && AgreeOn(Keys(c), l1, l2)
    ensures Redistributed(c, extras, l1) == Redistributed(c, extras, l2)
  {
    if |c| > 0 {
      assert SameLimit(Keys(c)[0], l1, l2);
      assert Keys(c[1..]) == Keys(c)[1..];
      RedistributedAgree(c[1..], extras[1..], l1, l2);
      assert TopUp(c[0].key, c[0].value, extras[0].value, l1) == TopUp(c[0].key, c[0].value, extras[0].value, l2);
    }
  }

  /** The redistribution adds at most the extras, when they are
      non-negative. */
  lemma {:induction false} RedistributedTotal(c: Table, extras: Table, limits: map<string, real>)
    requires |extras| == |c|
    requires forall j :: 0 <= j < |extras| ==> extras[j].value >= 0.0
    ensures Total(Redistributed(c, extras, limits)) <= Total(c) + Total(extras)
  {
    if |c| > 0 {
      var r := Redistributed(c, extras, limits);
      RedistributedTotal(c[1..], extras[1..], limits);
      assert r[1..] == Redistributed(c[1..], extras[1..], limits);
    }
  }

  /** Non-negative weights split a non-negative amount into non-negative
      extras. */
  lemma {:induction false} ProportionalNonNegative(w: Table, x: real)
    requires x >= 0.0
    requires forall j :: 0 <= j < |w| ==> w[j].value >= 0.0
    ensures forall j :: 0 <= j < |w| ==> Proportional(w, x)[j].value >= 0.0
  {
    forall j | 0 <= j < |w| ensures Proportional(w, x)[j].value >= 0.0 {
      ProportionalAt(w, x, j);
      ShareSign(w[j].value, x);
    }
  }

  /** The extras of an allocation are non-negative when the means are. */
  lemma {:induction false} ExtrasNonNegative(means: Table, x: real)
    requires Total(means) > 0.0 && x >= 0.0
    requires forall j :: 0 <= j < |means| ==> means[j].value >= 0.0
    ensures forall j :: 0 <= j < |means| ==> Proportional(Weights(means), x)[j].value >= 0.0
  {
    var w := Weights(means);
    forall j | 0 <= j < |w| ensures w[j].value >= 0.0 {
      WeightsNonNegative(means, j);
    }
    ProportionalNonNegative(w, x);
  }

  /** With non-negative means of positive sum, the allocation never hands out
      more than the budget. */
  lemma {:induction false} AllocateWithinBudget(means: Table, limits: map<string, real>, budget: real)
    requires Total(means) > 0.0
    requires forall j :: 0 <= j < |means| ==> means[j].value >= 0.0
    ensures Total(Allocate(means, limits, budget).value) <= budget
  {
    var w := Weights(means);
    var c := Capped(Proportional(w, budget), limits);
    if Total(c) < budget {
      RedistributedBound(means, c, budget - Total(c), limits);
      assert Allocate(means, limits, budget) == Some(Redistributed(c, Proportional(w, budget - Total(c)), limits));
    } else {
      FirstSplitTotal(means, budget);
      assert Allocate(means, limits, budget) == Some(c);
    }
  }

  lemma {:induction false} RedistributedBound(means: Table, c: Table, shortfall: real, limits: map<string, real>)
    requires Total(means) > 0.0 && |c| == |means| && shortfall >= 0.0
    requires forall j :: 0 <= j < |means| ==> means[j].value >= 0.0
    ensures Total(Redistributed(c, Proportional(Weights(means), shortfall), limits)) <= Total(c) + shortfall
  {
    var w := Weights(means);
    WeightsTotal(means);
    ExtrasNonNegative(means, shortfall);
    RedistributedTotal(c, Proportional(w, shortfall), limits);
    ProportionalTotal(w, shortfall);
    UnitShare(Total(w), shortfall);
  }


  /** One channel's amount after the corrected redistribution step: as in
      the source, but a limited channel stops at its limit. */
  function TopUpWithinLimit(k: string, v: real, extra: real, limits: map<string, real>): (top: real)
    ensures k in limits && v <= limits[k] ==> top <= limits[k]
    ensures top <= TopUp(k, v, extra, limits)
    ensures k !in limits ==> top == TopUp(k, v, extra, limits)
  {
    var raised := TopUp(k, v, extra, limits);
    if Eligible(k, v, limits) && k in limits && raised > limits[k] then limits[k] else raised
  }

  /** The redistribution as evidently intended: an eligible limited channel
      receives its extra only up to its limit. */
  function RedistributedWithinLimits(c: Table, extras: Table, limits: map<string, real>): (r: Table)
    requires |extras| == |c|
    ensures Keys(r) == Keys(c)
    ensures forall i :: 0 <= i < |r| ==>
      r[i].value == TopUpWithinLimit(c[i].key, c[i].value, extras[i].value, limits)
  {
    if |c| == 0 then []
    else
      [Entry(c[0].key, TopUpWithinLimit(c[0].key, c[0].value, extras[0].value, limits))]
      + RedistributedWithinLimits(c[1..], extras[1..], limits)
  }

  /** The corrected allocation: capping, then the limit-respecting
      redistribution. */
  function AllocateWithinLimits(means: Table, limits: map<string, real>, budget: real): (r: Option<Table>)
    ensures r.None? <==> means != [] && Total(means) == 0.0
    ensures r.Some? ==> Keys(r.value) == Keys(means)
  {
    if means != [] && Total(means) == 0.0 then None
    else
      var w := Weights(means);
      var c := Capped(Proportional(w, budget), limits);
      var total := Total(c);
      if total < budget then Some(RedistributedWithinLimits(c, Proportional(w, budget - total), limits)) else Some(c)
  }

  /** The corrected allocation keeps every limited channel within its limit. */
  lemma {:induction false} AllocateWithinLimitsRespectsCaps(means: Table, limits: map<string, real>, budget: real, i: nat)
    requires Total(means) != 0.0 && i < |means| && means[i].key in limits
    ensures AllocateWithinLimits(means, limits, budget).value[i].value <= limits[means[i].key]
  {
    var w := Weights(means);
    var a := Proportional(w, budget);
    var c := Capped(a, limits);
    assert a[i].key == means[i].key by {
      assert Keys(a)[i] == Keys(means)[i];
    }
    assert c[i].key == means[i].key by {
      assert Keys(c)[i] == Keys(a)[i];
    }
  }

  lemma {:induction false} WithinLimitsTotal(c: Table, extras: Table, limits: map<string, real>)
    requires |extras| == |c|
    requires forall j :: 0 <= j < |extras| ==> extras[j].value >= 0.0
    ensures Total(RedistributedWithinLimits(c, extras, limits)) <= Total(c) + Total(extras)
  {
    if |c| > 0 {
      var r := RedistributedWithinLimits(c, extras, limits);
      WithinLimitsTotal(c[1..], extras[1..], limits);
      assert r[1..] == RedistributedWithinLimits(c[1..], extras[1..], limits);
    }
  }

  /** The corrected allocation stays within the budget as well. */
  lemma {:induction false} AllocateWithinLimitsWithinBudget(means: Table, limits: map<string, real>, budget: real)
    requires Total(means) > 0.0
    requires forall j :: 0 <= j < |means| ==> means[j].value >= 0.0
    ensures Total(AllocateWithinLimits(means, limits, budget).value) <= budget
  {
    var w := Weights(means);
    var c := Capped(Proportional(w, budget), limits);
    if Total(c) < budget {
      RedistributedWithinLimitsBound(means, c, budget - Total(c), limits);
      assert AllocateWithinLimits(means, limits, budget) == Some(RedistributedWithinLimits(c, Proportional(w, budget - Total(c)), limits));
    } else {
      FirstSplitTotal(means, budget);
      assert AllocateWithinLimits(means, limits, budget) == Some(c);
    }
  }

  lemma {:induction false} RedistributedWithinLimitsBound(means: Table, c: Table, shortfall: real, limits: map<string, real>)
    requires Total(means) > 0.0 && |c| == |means| && shortfall >= 0.0
    requires forall j :: 0 <= j < |means| ==> means[j].value >= 0.0
    ensures Total(RedistributedWithinLimits(c, Proportional(Weights(means), shortfall), limits)) <= Total(c) + shortfall
  {
    var w := Weights(means);
    WeightsTotal(means);
    ExtrasNonNegative(means, shortfall);
    WithinLimitsTotal(c, Proportional(w, shortfall), limits);
    ProportionalTotal(w, shortfall);
    UnitShare(Total(w), shortfall);
  }


  /** Where no eligible limited channel would be pushed past its limit, the
      corrected redistribution is the one the source performs. */
  lemma {:induction false} WithinLimitsAgrees(c: Table, extras: Table, limits: map<string, real>)
    requires |extras| == |c|
    requires forall j :: 0 <= j < |c| && c[j].key in limits && c[j].value < limits[c[j].key] ==>
      c[j].value + extras[j].value <= limits[c[j].key]
    ensures RedistributedWithinLimits(c, extras, limits) == Redistributed(c, extras, limits)
  {
    if |c| > 0 {
      WithinLimitsAgrees(c[1..], extras[1..], limits);
      assert TopUpWithinLimit(c[0].key, c[0].value, extras[0].value, limits)
        == TopUp(c[0].key, c[0].value, extras[0].value, limits);
    }
  }

  /** The source's allocation can leave a limited channel above its limit:
      with equal means for A and B, a budget of 1000 and limits of 600 for A
      and 100 for B, B is cut to 100, and the 400 it freed is split by weight
      among the eligible channels; only A is eligible, so A ends at 700. */
  lemma ExceedsLimit()
    ensures var r := Allocate(ExampleMeans, ExampleLimits, 1000.0).value;
      && r == [Entry("A", 700.0), Entry("B", 100.0)]
      && r[0].value > ExampleLimits["A"]
  {
    var w := Weights(ExampleMeans);
    ExampleWeights();
    ExampleCapped();
    ExampleExtras();
    var c := Capped(Proportional(w, 1000.0), ExampleLimits);
    var extras := Proportional(w, 400.0);
    assert Redistributed(c, extras, ExampleLimits) == [Entry("A", 700.0), Entry("B", 100.0)];
  }

  /** Equal means for A and B; limits of 600 for A and 100 for B. */
  const ExampleMeans: Table := [Entry("A", 1.0), Entry("B", 1.0)]
  const ExampleLimits: map<string, real> := map["A" := 600.0, "B" := 100.0]

  lemma ExampleWeights()
    ensures Total(ExampleMeans) == 2.0
    ensures Weights(ExampleMeans) == [Entry("A", 0.5), Entry("B", 0.5)]
  {
    WeightAt(ExampleMeans, 0);
    WeightAt(ExampleMeans, 1);
  }

  lemma ExampleExtras()
    ensures Proportional(Weights(ExampleMeans), 400.0) == [Entry("A", 200.0), Entry("B", 200.0)]
  {
    ExampleWeights();
    ProportionalAt(Weights(ExampleMeans), 400.0, 0);
    ProportionalAt(Weights(ExampleMeans), 400.0, 1);
  }

  lemma ExampleCapped()
    ensures var c := Capped(Proportional(Weights(ExampleMeans), 1000.0), ExampleLimits);
      c == [Entry("A", 500.0), Entry("B", 100.0)] && Total(c) == 600.0
  {
    ExampleWeights();
    var w := Weights(ExampleMeans);
    ProportionalAt(w, 1000.0, 0);
    ProportionalAt(w, 1000.0, 1);
    assert Proportional(w, 1000.0) == [Entry("A", 500.0), Entry("B", 500.0)];
  }


  /** The message of the `TypeError` that `float(None)` raises, in the
      wording of Python 3.10 and later. */
  const FloatOfNoneError := "float() argument must be a string or a real number, not 'NoneType'"

  /** `POST /optimize_budget` as the browser receives it. A blank budget box
      arrives as `null`, `float` raises and the reply reports failure with
      the exception text and no traceback. Means summing to zero give
      amounts of which some are NaN or an infinity, which the reply body
      carries as the bare tokens `NaN` or `Infinity`; the browser cannot
      parse that body, and `parseError` is the text of the
      error it throws. Otherwise the reply carries the allocation. */
  function OptimizeBudget(req: BudgetRequest, parseError: string): (reply: Reply<Table>)
    ensures req.budget.None? ==> reply == LogicalFailure(Some(FloatOfNoneError), None)
    ensures req.budget.Some? && req.meanAttributions != [] && Total(req.meanAttributions) == 0.0 ==>
      reply == TransportFailure(parseError)
    ensures reply.Success? <==> req.budget.Some? && (req.meanAttributions == [] || Total(req.meanAttributions) != 0.0)
    ensures reply.Success? ==>
      && Some(reply.payload) == Allocate(req.meanAttributions, req.channelLimits, req.budget.value)
      && Keys(reply.payload) == Keys(req.meanAttributions)
  {
    match req.budget
    case None => LogicalFailure(Some(FloatOfNoneError), None)
    case Some(budget) =>
      match Allocate(req.meanAttributions, req.channelLimits, budget)
      case None => TransportFailure(parseError)
      case Some(allocations) => Success(allocations)
  }
}

=== FILE: charts.dfy ===
/**
  The four chart variables of the page and the dispose-then-create discipline
  of the chart builders: each builder destroys the chart its slot's variable
  holds, if any, creates a new chart and stores it in the variable.
 */
module Charts {

  /** The four chart variables: attribution bars, model comparison, channel
      performance scatter and budget doughnut. */
  datatype Slot = AttributionSlot | ComparisonSlot | PerformanceSlot | BudgetSlot

  datatype Chart<D> = Chart(slot: Slot, data: D)

  /** Every chart ever created, in creation order (a chart's index is its
      identity), the chart each slot's variable holds, and the charts that
      have been destroyed. */
  datatype Registry<D> = Registry(created: seq<Chart<D>>, bound: map<Slot, nat>, destroyed: set<nat>)

  /** The page before any chart exists: every variable is `null`. */
  function EmptyRegistry<D>(): (r: Registry<D>)
    ensures Wellformed(r) && LiveCharts(r) == {}
  {
    Registry([], map[], {})
  }

  /** The created charts that have not been destroyed. */
  function LiveCharts<D>(r: Registry<D>): set<nat>
  {
    set i | 0 <= i < |r.created| && i !in r.destroyed
  }

  /** Only created charts have been destroyed, each variable holds a live
      chart of its own slot, and every live chart is held by the variable of
      its slot. */
  predicate Wellformed<D>(r: Registry<D>)
  {
    && (forall i :: i in r.destroyed ==> i < |r.created|)
    && (forall s :: s in r.bound ==>
          r.bound[s] < |r.created| && r.created[r.bound[s]].slot == s && r.bound[s] !in r.destroyed)
    && (forall i :: 0 <= i < |r.created| && i !in r.destroyed ==>
          r.created[i].slot in r.bound && r.bound[r.created[i].slot] == i)
  }

  /** One chart builder run: destroy the chart the slot's variable holds, if
      any, then create the new chart and store it in the variable. */
  function Rebuild<D>(r: Registry<D>, s: Slot, data: D): (r': Registry<D>)
    ensures |r'.created| == |r.created| + 1 && r'.created[..|r.created|] == r.created
    ensures r'.created[|r.created|] == Chart(s, data)
    ensures s in r'.bound && r'.bound[s] == |r.created|
    ensures forall t :: t != s ==> (t in r'.bound <==> t in r.bound) && (t in r.bound ==> r'.bound[t] == r.bound[t])
    ensures s in r.bound ==> r'.destroyed == r.destroyed + {r.bound[s]}
    ensures s !in r.bound ==> r'.destroyed == r.destroyed
  {
    var destroyed := if s in r.bound then r.destroyed + {r.bound[s]} else r.destroyed;
    Registry(r.created + [Chart(s, data)], r.bound[s := |r.created|], destroyed)
  }

  /** A builder keeps the registry well formed; what it destroys was live
      (no chart is destroyed twice); afterwards the slot's variable holds the
      new chart, every earlier chart of that slot is destroyed, and the other
      slots' charts are as they were. */
  lemma {:induction false} RebuildReplaces<D>(r: Registry<D>, s: Slot, data: D)
    requires Wellformed(r)
    ensures var r' := Rebuild(r, s, data);
      && Wellformed(r')
      && (s in r.bound ==> r.bound[s] in LiveCharts(r))
      && r'.bound[s] in LiveCharts(r') && r'.created[r'.bound[s]] == Chart(s, data)
      && (forall i :: 0 <= i < |r.created| && r.created[i].slot == s ==> i !in LiveCharts(r'))
      && (forall i :: 0 <= i < |r.created| && r.created[i].slot != s ==> (i in LiveCharts(r') <==> i in LiveCharts(r)))
  {
    var r' := Rebuild(r, s, data);
    var n := |r.created|;
    RebuildWellformed(r, s, data);
    forall i | 0 <= i < n && r.created[i].slot == s ensures i !in LiveCharts(r') {
      if i !in r.destroyed {
        assert r.bound[s] == i;
      }
    }
    forall i | 0 <= i < n && r.created[i].slot != s ensures i in LiveCharts(r') <==> i in LiveCharts(r) {
      if i !in r.destroyed {
        assert r.bound[r.created[i].slot] == i;
      }
    }
  }

  lemma {:induction false} RebuildWellformed<D>(r: Registry<D>, s: Slot, data: D)
    requires Wellformed(r)
    ensures Wellformed(Rebuild(r, s, data))
  {
    var r' := Rebuild(r, s, data);
    var n := |r.created|;
    forall t | t in r'.bound
      ensures r'.bound[t] < |r'.created| && r'.created[r'.bound[t]].slot == t && r'.bound[t] !in r'.destroyed
    {
      if t != s {
        assert r'.created[r.bound[t]] == r.created[r.bound[t]];
      }
    }
    forall i | 0 <= i < |r'.created| && i !in r'.destroyed
      ensures r'.created[i].slot in r'.bound && r'.bound[r'.created[i].slot] == i
    {
      if i < n {
        assert r'.created[i] == r.created[i];
        assert i !in r.destroyed;
      }
    }
  }

  /** In a well-formed registry each slot has at most one live chart. */
  lemma {:induction false} OneLivePerSlot<D>(r: Registry<D>, i: nat, j: nat)
    requires Wellformed(r)
    requires i in LiveCharts(r) && j in LiveCharts(r)
    requires r.created[i].slot == r.created[j].slot
    ensures i == j
  {
    assert r.bound[r.created[i].slot] == i;
  }
}

=== FILE: controller.dfy ===
/**
  The browser controller as an explicit state machine. The page state holds
  the session's attribution results, the two buttons, the visibility of the
  sections, what the tables, inputs, cards and charts show, the notices
  (`alert`), the console log and the remote calls made so far. Each click
  handler is a Start step, taken before the remote call, and a Complete step
  that receives the reply; the `finally` blocks are the last part of the
  Complete steps.
 */
module Controller {
  import opened Tables
  import opened Protocol
  import opened LimitIds
  import opened Views
  import opened Charts
  import opened Allocator

  /** A button: whether it is disabled, its text and whether its spinner is
      shown. */
  datatype Button = Button(disabled: bool, text: string, loaderShown: bool)

  const RunIdle := Button(false, "Run Attribution Models", false)
  const RunBusy := Button(true, "Running Analysis...", true)
  const OptimizeIdle := Button(false, "Optimize Budget", false)
  const OptimizeBusy := Button(true, "Optimizing...", true)

  const GateNotice := "Please run attribution analysis first!"

  /** A remote call the page has made. */
  datatype Call = AttributionCall | OptimizeCall(body: BudgetRequest)

  datatype Page = Page(
    results: Option<ResultSet>,
    runButton: Button,
    optimizeButton: Button,
    analyticsShown: bool,
    resultsShown: bool,
    budgetShown: bool,
    budgetResultsShown: bool,
    summary: Option<Analytics>,
    resultRows: seq<ResultRow>,
    statsRows: seq<StatsRow>,
    limitFields: seq<LimitField>,
    budgetBox: FieldValue,
    budgetCards: seq<BudgetCard>,
    charts: Registry<ChartData>,
    alerts: seq<string>,
    console: seq<string>,
    calls: seq<Call>)

  /** The page as loaded: no results, idle buttons, hidden sections, no
      limit inputs and no charts. The budget box holds whatever the page
      starts it with. */
  function InitialPage(budgetBox: FieldValue): (p: Page)
    ensures Invariant(p) && p.results.None? && p.calls == []
    ensures p.charts == EmptyRegistry() && p.limitFields == [] && p.budgetCards == [] && p.alerts == []
  {
    Page(None, RunIdle, OptimizeIdle, false, false, false, false, None, [], [], [], budgetBox, [], EmptyRegistry(), [], [], [])
  }

  /** Start of the attribution handler: the button goes busy and the request
      is sent. */
  function StartAttribution(p: Page): (q: Page)
    ensures q.runButton == RunBusy && q.calls == p.calls + [AttributionCall]
    ensures q.(runButton := p.runButton, calls := p.calls) == p
  {
    p.(runButton := RunBusy, calls := p.calls + [AttributionCall])
  }

  /** The text after `Error: ` when the attribution reply reports failure:
      the reply's error, or `Unknown error` when it has none or an empty one. */
  function AttributionErrorText(error: Option<string>): (t: string)
    ensures error.Some? && error.value != "" ==> t == error.value
    ensures error.None? || error.value == "" ==> t == "Unknown error"
  {
    if error.Some? && error.value != "" then error.value else "Unknown error"
  }

  /** The page after a successful attribution reply: the results are stored,
      the summary, both tables, the three charts and the limit inputs are
      rebuilt, and the three sections are revealed. */
  function ShowAttribution(p: Page, payload: AttributionPayload): Page
  {
    var results := payload.results;
    var stats := payload.analytics.channelStats;
    var charts := Rebuild(p.charts, PerformanceSlot, Scatter(ScatterPoints(results, stats)));
    var charts := Rebuild(charts, AttributionSlot, AttributionChartData(results));
    var charts := Rebuild(charts, ComparisonSlot, ComparisonChartData(results));
    p.(results := Some(results),
       summary := Some(payload.analytics),
       resultRows := ResultRows(results),
       statsRows := StatsRows(results, stats),
       charts := charts,
       analyticsShown := true,
       resultsShown := true,
       budgetShown := true,
       limitFields := LimitFields(Keys(results)))
  }

  /** Completion of the attribution handler, whatever the reply, ending with
      the `finally` block that restores the button. */
  function CompleteAttribution(p: Page, reply: Reply<AttributionPayload>): (q: Page)
    ensures q.runButton == RunIdle
    ensures q.optimizeButton == p.optimizeButton && q.calls == p.calls && q.budgetBox == p.budgetBox
  {
    var q := match reply
      case Success(payload) => ShowAttribution(p, payload)
      case LogicalFailure(error, traceback) =>
        p.(alerts := p.alerts + ["Error: " + AttributionErrorText(error)],
           console := p.console + (if traceback.Some? && traceback.value != "" then [traceback.value] else []))
      case TransportFailure(reason) =>
        p.(alerts := p.alerts + ["Error running attribution models: " + reason],
           console := p.console + [reason]);
    q.(runButton := RunIdle)
  }

  /** Start of the optimize handler. Without stored results it only shows
      the notice; otherwise the button goes busy and the request assembled
      from the stored results, the limit inputs and the budget box is sent. */
  function StartOptimize(p: Page): (q: Page)
    ensures p.results.Some? ==>
      && q.optimizeButton == OptimizeBusy
      && q.calls == p.calls + [OptimizeCall(AssembleRequest(p.results.value, p.limitFields, p.budgetBox))]
      && q.(optimizeButton := p.optimizeButton, calls := p.calls) == p
  {
    if p.results.None? then p.(alerts := p.alerts + [GateNotice])
    else
      var body := AssembleRequest(p.results.value, p.limitFields, p.budgetBox);
      p.(optimizeButton := OptimizeBusy, calls := p.calls + [OptimizeCall(body)])
  }

  /** The text after `Error: ` when the budget reply reports failure: the
      reply's error, or `undefined` when it has none. */
  function OptimizeErrorText(error: Option<string>): (t: string)
    ensures error.Some? ==> t == error.value
    ensures error.None? ==> t == "undefined"
  {
    match error
    case Some(e) => e
    case None => "undefined"
  }

  /** Completion of the optimize handler for the request `sent`, ending with
      the `finally` block that restores the button. */
  function CompleteOptimize(p: Page, sent: BudgetRequest, reply: Reply<Table>): (q: Page)
    ensures q.optimizeButton == OptimizeIdle
    ensures q.runButton == p.runButton && q.results == p.results && q.calls == p.calls
    ensures q.limitFields == p.limitFields && q.budgetBox == p.budgetBox
  {
    var q := match reply
      case Success(allocations) =>
        p.(budgetCards := BudgetCards(allocations, sent.budget),
           charts := Rebuild(p.charts, BudgetSlot, BudgetChartData(allocations)),
           budgetResultsShown := true)
      case LogicalFailure(error, _) =>
        p.(alerts := p.alerts + ["Error: " + OptimizeErrorText(error)])
      case TransportFailure(reason) =>
        p.(alerts := p.alerts + ["Error optimizing budget: " + reason]);
    q.(optimizeButton := OptimizeIdle)
  }

  /** The user types into the `i`-th limit input. */
  function EditLimit(p: Page, i: nat, v: FieldValue): (q: Page)
    ensures q.(limitFields := p.limitFields) == p
    ensures |q.limitFields| == |p.limitFields| && (i < |p.limitFields| ==> q.limitFields[i].value == v)
    ensures forall j :: 0 <= j < |p.limitFields| ==>
      && q.limitFields[j].channel == p.limitFields[j].channel && q.limitFields[j].id == p.limitFields[j].id
      && (j != i ==> q.limitFields[j] == p.limitFields[j])
  {
    p.(limitFields := EditField(p.limitFields, i, v))
  }

  /** The user types into the budget box. */
  function EditBudget(p: Page, v: FieldValue): (q: Page)
    ensures q.budgetBox == v && q.(budgetBox := p.budgetBox) == p
  {
    p.(budgetBox := v)
  }

  /** Optimize without stored results shows exactly one notice and changes
      nothing else: no remote call, and the button never goes busy. */
  lemma {:induction false} GateBlocksOptimize(p: Page)
    requires p.results.None?
    ensures StartOptimize(p).alerts == p.alerts + [GateNotice]
    ensures StartOptimize(p).(alerts := p.alerts) == p
  {
  }

  /** The stored results change only on a successful reply, and then become
      that reply's results; after a failure the sections are as they were. */
  lemma {:induction false} ResultsOnlyOnSuccess(p: Page, reply: Reply<AttributionPayload>)
    ensures var q := CompleteAttribution(p, reply);
      && (reply.Success? ==>
            (q.results == Some(reply.payload.results) && q.analyticsShown && q.resultsShown && q.budgetShown))
      && (!reply.Success? ==>
            (&& q.results == p.results && q.analyticsShown == p.analyticsShown
             && q.resultsShown == p.resultsShown && q.budgetShown == p.budgetShown
             && q.charts == p.charts && q.limitFields == p.limitFields))
  {
  }

  /** A failed reply adds exactly one notice; a logical failure's notice is
      `Error: ` and the reply's error (or `Unknown error`), and its traceback,
      when there is one, goes to the console. */
  lemma {:induction false} AttributionFailureNotice(p: Page, error: Option<string>, traceback: Option<string>)
    ensures var q := CompleteAttribution(p, LogicalFailure(error, traceback));
      && q.alerts == p.alerts + ["Error: " + AttributionErrorText(error)]
      && (traceback.Some? && traceback.value != "" ==> q.console == p.console + [traceback.value])
      && (traceback.None? || traceback.value == "" ==> q.console == p.console)
  {
  }

  /** A transport failure of the attribution call adds exactly one notice,
      naming the failure, and sends the failure to the console. */
  lemma {:induction false} AttributionTransportNotice(p: Page, reason: string)
    ensures var q := CompleteAttribution(p, TransportFailure(reason));
      && q.alerts == p.alerts + ["Error running attribution models: " + reason]
      && q.console == p.console + [reason]
      && q.results == p.results && q.charts == p.charts
  {
  }

  /** A failed budget reply, logical or transport, adds exactly one notice
      and leaves the cards, the charts and the budget section as they were. */
  lemma {:induction false} OptimizeFailureKeepsDisplay(p: Page, sent: BudgetRequest, reply: Reply<Table>)
    requires !reply.Success?
    ensures var q := CompleteOptimize(p, sent, reply);
      && |q.alerts| == |p.alerts| + 1 && q.alerts[..|p.alerts|] == p.alerts
      && (reply.LogicalFailure? ==> q.alerts[|p.alerts|] == "Error: " + OptimizeErrorText(reply.error))
      && (reply.TransportFailure? ==> q.alerts[|p.alerts|] == "Error optimizing budget: " + reply.reason)
      && q.budgetCards == p.budgetCards && q.charts == p.charts
      && q.budgetResultsShown == p.budgetResultsShown
  {
  }

  /** Both handlers go busy on entry and are idle again on exit, whatever the
      reply. */
  lemma {:induction false} ButtonsRestored(p: Page, r1: Reply<AttributionPayload>, sent: BudgetRequest, r2: Reply<Table>)
    ensures StartAttribution(p).runButton == RunBusy
    ensures CompleteAttribution(StartAttribution(p), r1).runButton == RunIdle
    ensures p.results.Some? ==> StartOptimize(p).optimizeButton == OptimizeBusy
    ensures CompleteOptimize(StartOptimize(p), sent, r2).optimizeButton == OptimizeIdle
    ensures RunIdle != RunBusy && OptimizeIdle != OptimizeBusy
  {
  }

  /** After a successful attribution reply the three attribution charts
      show that reply, and the budget chart is untouched. */
  lemma {:induction false} AttributionChartsShown(p: Page, payload: AttributionPayload)
    requires Wellformed(p.charts)
    ensures var q := CompleteAttribution(p, Success(payload));
      var results := payload.results;
      && Wellformed(q.charts)
      && q.charts.created[q.charts.bound[PerformanceSlot]].data == Scatter(ScatterPoints(results, payload.analytics.channelStats))
      && q.charts.created[q.charts.bound[AttributionSlot]].data == AttributionChartData(results)
      && q.charts.created[q.charts.bound[ComparisonSlot]].data == ComparisonChartData(results)
      && (BudgetSlot in q.charts.bound <==> BudgetSlot in p.charts.bound)
      && (BudgetSlot in p.charts.bound ==> q.charts.bound[BudgetSlot] == p.charts.bound[BudgetSlot])
  {
    var results := payload.results;
    var d1 := Scatter(ScatterPoints(results, payload.analytics.channelStats));
    var d2 := AttributionChartData(results);
    var d3 := ComparisonChartData(results);
    assert CompleteAttribution(p, Success(payload)).charts
      == Rebuild(Rebuild(Rebuild(p.charts, PerformanceSlot, d1), AttributionSlot, d2), ComparisonSlot, d3);
    ThreeRebuilds(p.charts, d1, d2, d3);
  }

  /** Rebuilding the performance, attribution and comparison charts in turn
      leaves each showing its new data and the budget chart as it was. */
  lemma {:induction false} ThreeRebuilds(r: Registry<ChartData>, d1: ChartData, d2: ChartData, d3: ChartData)
    requires Wellformed(r)
    ensures var r3 := Rebuild(Rebuild(Rebuild(r, PerformanceSlot, d1), AttributionSlot, d2), ComparisonSlot, d3);
      && Wellformed(r3)
      && r3.created[r3.bound[PerformanceSlot]].data == d1
      && r3.created[r3.bound[AttributionSlot]].data == d2
      && r3.created[r3.bound[ComparisonSlot]].data == d3
      && (BudgetSlot in r3.bound <==> BudgetSlot in r.bound)
      && (BudgetSlot in r.bound ==> r3.bound[BudgetSlot] == r.bound[BudgetSlot])
  {
    var r1 := Rebuild(r, PerformanceSlot, d1);
    var r2 := Rebuild(r1, AttributionSlot, d2);
    var r3 := Rebuild(r2, ComparisonSlot, d3);
    RebuildWellformed(r, PerformanceSlot, d1);
    RebuildWellformed(r1, AttributionSlot, d2);
    RebuildWellformed(r2, ComparisonSlot, d3);
    assert r3.created[|r.created|] == r1.created[|r.created|] by {
      assert r3.created[..|r1.created|] == r2.created[..|r1.created|] == r1.created;
    }
    assert r3.created[|r1.created|] == r2.created[|r1.created|];
  }


  /** A successful budget reply shows one card per allocation, with its
      channel and amount, and a new budget chart of the allocations. */
  lemma {:induction false} BudgetReplyShown(p: Page, sent: BudgetRequest, allocations: Table)
    requires Wellformed(p.charts)
    ensures var q := CompleteOptimize(p, sent, Success(allocations));
      && q.budgetResultsShown
      && |q.budgetCards| == |allocations|
      && (forall i :: 0 <= i < |q.budgetCards| ==>
            q.budgetCards[i].channel == allocations[i].key && q.budgetCards[i].amount == allocations[i].value)
      && Wellformed(q.charts)
      && q.charts.created[q.charts.bound[BudgetSlot]].data == BudgetChartData(allocations)
  {
    RebuildReplaces(p.charts, BudgetSlot, BudgetChartData(allocations));
  }



  /** What holds between two clicks: the buttons are idle, the chart
      registry is well formed, and the limit inputs are the ones generated
      for the stored results (none before there are results). */
  predicate Invariant(p: Page)
  {
    && p.runButton == RunIdle
    && p.optimizeButton == OptimizeIdle
    && Wellformed(p.charts)
    && (p.results.None? ==> p.limitFields == [])
    && (p.results.Some? ==>
          && |p.limitFields| == |p.results.value|
          && forall i :: 0 <= i < |p.limitFields| ==>
               p.limitFields[i].channel == p.results.value[i].key && p.limitFields[i].id == InputId(p.results.value[i].key))
  }

  /** A user action, with the reply the remote call (if any) receives. */
  datatype Event =
    | RunClicked(attributionReply: Reply<AttributionPayload>)
    | OptimizeClicked(budgetReply: Reply<Table>)
    | LimitTyped(index: nat, limit: FieldValue)
    | BudgetTyped(budget: FieldValue)

  /** One action run to completion. */
  function Step(p: Page, e: Event): Page
  {
    match e
    case RunClicked(reply) => CompleteAttribution(StartAttribution(p), reply)
    case OptimizeClicked(reply) =>
      if p.results.None? then StartOptimize(p)
      else CompleteOptimize(StartOptimize(p), AssembleRequest(p.results.value, p.limitFields, p.budgetBox), reply)
    case LimitTyped(i, v) => EditLimit(p, i, v)
    case BudgetTyped(v) => EditBudget(p, v)
  }

  function Steps(p: Page, es: seq<Event>): Page
    decreases |es|
  {
    if |es| == 0 then p else Steps(Step(p, es[0]), es[1..])
  }

  lemma {:induction false} StepKeepsInvariant(p: Page, e: Event)
    requires Invariant(p)
    ensures Invariant(Step(p, e))
  {
    match e
    case RunClicked(reply) => RunKeepsInvariant(p, reply);
    case OptimizeClicked(reply) => OptimizeKeepsInvariant(p, reply);
    case LimitTyped(i, v) =>
    case BudgetTyped(v) =>
  }

  lemma {:induction false} RunKeepsInvariant(p: Page, reply: Reply<AttributionPayload>)
    requires Invariant(p)
    ensures Invariant(CompleteAttribution(StartAttribution(p), reply))
  {
    if reply.Success? {
      var s := StartAttribution(p);
      AttributionChartsShown(s, reply.payload);
      var q := CompleteAttribution(s, reply);
      var results := reply.payload.results;
      assert q.results == Some(results);
      assert q.limitFields == LimitFields(Keys(results));
      forall i | 0 <= i < |q.limitFields|
        ensures q.limitFields[i].channel == results[i].key && q.limitFields[i].id == InputId(results[i].key)
      {
        assert Keys(results)[i] == results[i].key;
      }
    }
  }

  lemma {:induction false} OptimizeKeepsInvariant(p: Page, reply: Reply<Table>)
    requires Invariant(p)
    ensures Invariant(Step(p, OptimizeClicked(reply)))
  {
    if p.results.Some? && reply.Success? {
      var sent := AssembleRequest(p.results.value, p.limitFields, p.budgetBox);
      var s := StartOptimize(p);
      RebuildReplaces(s.charts, BudgetSlot, BudgetChartData(reply.payload));
    }
  }

  /** Over any sequence of actions from a page where it holds, the invariant
      keeps holding: in particular every slot has at most one live chart and
      both buttons are idle between actions. */
  lemma {:induction false} StepsKeepInvariant(p: Page, es: seq<Event>)
    requires Invariant(p)
    ensures Invariant(Steps(p, es))
    decreases |es|
  {
    if |es| > 0 {
      StepKeepsInvariant(p, es[0]);
      StepsKeepInvariant(Step(p, es[0]), es[1..]);
    }
  }

  /** Once results are stored they stay stored, and a sequence of actions
      without a successful attribution reply leaves them unchanged. */
  lemma {:induction false} ResultsPersist(p: Page, es: seq<Event>)
    ensures p.results.Some? ==> Steps(p, es).results.Some?
    ensures (forall i :: 0 <= i < |es| ==> !(es[i].RunClicked? && es[i].attributionReply.Success?)) ==>
      Steps(p, es).results == p.results
    decreases |es|
  {
    if |es| > 0 {
      StepKeepsResults(p, es[0]);
      ResultsPersist(Step(p, es[0]), es[1..]);
    }
  }

  /** One event keeps stored results stored, and only a successful run
      replaces them. */
  lemma StepKeepsResults(p: Page, e: Event)
    ensures p.results.Some? ==> Step(p, e).results.Some?
    ensures !(e.RunClicked? && e.attributionReply.Success?) ==> Step(p, e).results == p.results
  {
  }


  /** The budget request sent by an optimize click carries every stored
      channel's mean, and, when no two stored channels share an input id,
      exactly the limits typed into the channels' own inputs. */
  lemma {:induction false} OptimizeSendsTypedLimits(p: Page, i: nat)
    requires Invariant(p) && p.results.Some? && i < |p.results.value|
    requires forall j, k :: 0 <= j < k < |p.results.value| ==>
      InputId(p.results.value[j].key) != InputId(p.results.value[k].key)
    ensures var body := StartOptimize(p).calls[|p.calls|].body;
      var ch := p.results.value[i].key;
      && body.meanAttributions[i] == Entry(ch, p.results.value[i].value.mean)
      && (p.limitFields[i].value.Number? ==> ch in body.channelLimits && body.channelLimits[ch] == p.limitFields[i].value.value)
      && (p.limitFields[i].value.Blank? ==> ch !in body.channelLimits)
  {
    var results := p.results.value;
    var body := AssembleRequest(results, p.limitFields, p.budgetBox);
    assert Keys(body.meanAttributions)[i] == Keys(results)[i];
    var channels := Keys(results);
    forall j | 0 <= j < |p.limitFields| ensures p.limitFields[j].id == InputId(channels[j]) {
    }
    OwnFieldRead(channels, p.limitFields, i);
  }

  /** End to end, a blank budget box: the server's `float` rejects the
      missing budget, the page shows its error after `Error: `, shows no
      budget results and keeps its cards and charts. */
  lemma {:induction false} BlankBudgetReported(p: Page, parseError: string)
    requires p.results.Some? && p.budgetBox == Blank
    ensures var sent := AssembleRequest(p.results.value, p.limitFields, p.budgetBox);
      var q := Step(p, OptimizeClicked(OptimizeBudget(sent, parseError)));
      && q.alerts == p.alerts + ["Error: " + FloatOfNoneError]
      && q.budgetResultsShown == p.budgetResultsShown
      && q.budgetCards == p.budgetCards && q.charts == p.charts
  {
  }

  /** With a number in the budget box and means that do not sum to zero, the
      budget request the page sends succeeds with the allocation of the
      stored means. */
  lemma {:induction false} OptimizeSucceeds(p: Page, parseError: string)
    requires p.results.Some? && p.budgetBox.Number?
    requires Total(MeanProjection(p.results.value)) != 0.0
    ensures var sent := AssembleRequest(p.results.value, p.limitFields, p.budgetBox);
      var allocations := Allocate(MeanProjection(p.results.value), sent.channelLimits, p.budgetBox.value);
      && allocations.Some?
      && OptimizeBudget(sent, parseError) == Success(allocations.value)
  {
    var sent := AssembleRequest(p.results.value, p.limitFields, p.budgetBox);
    assert sent.budget == Some(p.budgetBox.value);
    assert sent.meanAttributions == MeanProjection(p.results.value);
  }

}

=== FILE: journeys.dfy ===
/**
  Conversion journeys and the per-touch credit rules of the three
  position-based attribution models (linear, U-shaped, position decay).

  A user's journey is the subsequence of that user's rows whose conversion
  flag is 1, in data order. Within it every row has a `count` (the journey's
  length) and a `rank` (its 1-based position), exactly as the server derives
  them with `groupby(user).transform('count')` and `cumcount() + 1`.
 */
module Journeys {

  /** One row of the interaction log: the user's cookie, the channel touched,
      the conversion flag and the conversion value. */
  datatype Row = Row(user: string, channel: string, conversion: int, conversionValue: real)

  /** The number of rows of user `u` in `s`. */
  function CountIn(s: seq<Row>, u: string): nat
  {
    if |s| == 0 then 0
    else CountIn(s[..|s| - 1], u) + (if s[|s| - 1].user == u then 1 else 0)
  }

  /** The rows whose conversion flag is 1, in data order. */
  function Conversions(rows: seq<Row>): (c: seq<Row>)
    ensures |c| <= |rows|
    ensures forall x :: x in c <==> x in rows && x.conversion == 1
  {
    if |rows| == 0 then []
    else
      var init := rows[..|rows| - 1];
      assert rows == init + [rows[|rows| - 1]];
      Conversions(init) + (if rows[|rows| - 1].conversion == 1 then [rows[|rows| - 1]] else [])
  }

  /** The rows of user `u`, in order. */
  function Journey(s: seq<Row>, u: string): seq<Row>
  {
    if |s| == 0 then []
    else Journey(s[..|s| - 1], u) + (if s[|s| - 1].user == u then [s[|s| - 1]] else [])
  }

  /** `cumcount() + 1` within the row's user: how many rows of the same user
      come before row `i`, plus one. */
  function Rank(conv: seq<Row>, i: nat): nat
    requires i < |conv|
  {
    CountIn(conv[..i], conv[i].user) + 1
  }

  lemma {:induction false} JourneyLength(s: seq<Row>, u: string)
    ensures |Journey(s, u)| == CountIn(s, u)
  {
    if |s| > 0 {
      JourneyLength(s[..|s| - 1], u);
    }
  }

  /** Counting over a prefix never exceeds counting over the whole. */
  lemma {:induction false} CountInPrefix(s: seq<Row>, k: nat, u: string)
    requires k <= |s|
    ensures CountIn(s[..k], u) <= CountIn(s, u)
    ensures Journey(s[..k], u) <= Journey(s, u)
    decreases |s| - k
  {
    if k == |s| {
      assert s[..k] == s;
    } else {
      CountInPrefix(s, k + 1, u);
      assert s[..k + 1][..k] == s[..k];
    }
  }

  /** A row's rank lies between 1 and its user's count, and the row sits at
      position rank - 1 of its user's journey. */
  lemma {:induction false} RankInJourney(conv: seq<Row>, i: nat)
    requires i < |conv|
    ensures 1 <= Rank(conv, i) <= CountIn(conv, conv[i].user)
    ensures |Journey(conv, conv[i].user)| == CountIn(conv, conv[i].user)
    ensures Journey(conv, conv[i].user)[Rank(conv, i) - 1] == conv[i]
  {
    var u := conv[i].user;
    assert conv[..i + 1][..i] == conv[..i];
    CountInPrefix(conv, i + 1, u);
    JourneyLength(conv[..i + 1], u);
    JourneyLength(conv[..i], u);
    JourneyLength(conv, u);
    assert Journey(conv[..i + 1], u) == Journey(conv[..i], u) + [conv[i]];
  }

  /** Of two rows of the same user, the later one has the higher rank. */
  lemma {:induction false} RankIncreases(conv: seq<Row>, i: nat, j: nat)
    requires i < j < |conv| && conv[i].user == conv[j].user
    ensures Rank(conv, i) < Rank(conv, j)
  {
    var u := conv[i].user;
    assert conv[..j][..i + 1] == conv[..i + 1];
    CountInPrefix(conv[..j], i + 1, u);
    assert conv[..i + 1][..i] == conv[..i];
  }

  /** The three position-based credit rules. */
  datatype Rule = Linear | UShaped | PositionDecay

  /** The U-shaped rule for one touch, branch for branch as the server writes
      it: a lone touch gets everything, the first and the last touch 0.4
      each, and a middle touch an equal part of the remaining 0.2. */
  function UShapedWeight(count: nat, rank: nat): real
  {
    if count == 1 then 1.0
    else if rank == 1 || rank == count then 0.4
    else if count > 2 then 0.2 / (count - 2) as real
    else 0.2
  }

  /** Python's `2 ** e` for an integer exponent (a fraction when e < 0). */
  function Power2(e: int): real
    decreases if e >= 0 then e else -e
  {
    if e == 0 then 1.0
    else if e > 0 then 2.0 * Power2(e - 1)
    else Power2(e + 1) / 2.0
  }

  lemma {:induction false} Power2Positive(e: int)
    ensures Power2(e) > 0.0
    decreases if e >= 0 then e else -e
  {
    if e > 0 {
      Power2Positive(e - 1);
    } else if e < 0 {
      Power2Positive(e + 1);
    }
  }

  lemma {:induction false} Power2Monotone(a: nat, b: nat)
    requires a <= b
    ensures Power2(a) <= Power2(b)
    decreases b - a
  {
    if a < b {
      Power2Monotone(a, b - 1);
      Power2Positive(b - 1);
    }
  }

  /** The `pos_decay_attribution` column: 2^(count - rank) for every row. */
  function RawDecay(conv: seq<Row>): (w: seq<real>)
    ensures |w| == |conv|
  {
    seq(|conv|, i requires 0 <= i < |conv| => Power2(CountIn(conv, conv[i].user) - Rank(conv, i)))
  }

  lemma RawDecayPositive(conv: seq<Row>)
    ensures forall j :: 0 <= j < |conv| ==> RawDecay(conv)[j] > 0.0
  {
    forall j | 0 <= j < |conv| ensures RawDecay(conv)[j] > 0.0 {
      Power2Positive(CountIn(conv, conv[j].user) - Rank(conv, j));
    }
  }

  /** Sum of `col` over the first `k` rows that belong to user `u`. */
  function GroupSumUpTo(conv: seq<Row>, col: seq<real>, u: string, k: nat): real
    requires |col| == |conv| && k <= |conv|
  {
    if k == 0 then 0.0
    else GroupSumUpTo(conv, col, u, k - 1) + (if conv[k - 1].user == u then col[k - 1] else 0.0)
  }

  /** `groupby(user)[col].transform('sum')` read at user `u`. */
  function GroupSum(conv: seq<Row>, col: seq<real>, u: string): real
    requires |col| == |conv|
  {
    GroupSumUpTo(conv, col, u, |conv|)
  }

  /** With a positive column, a user's group sum is at least the value of
      each of that user's rows, so it is positive. */
  lemma {:induction false} GroupSumCovers(conv: seq<Row>, col: seq<real>, i: nat, k: nat)
    requires |col| == |conv| && i < k <= |conv|
    requires forall j :: 0 <= j < |conv| ==> col[j] > 0.0
    ensures GroupSumUpTo(conv, col, conv[i].user, k) >= col[i] > 0.0
  {
    if k - 1 > i {
      GroupSumCovers(conv, col, i, k - 1);
    } else {
      GroupSumNonNegative(conv, col, conv[i].user, k - 1);
    }
  }

  lemma {:induction false} GroupSumNonNegative(conv: seq<Row>, col: seq<real>, u: string, k: nat)
    requires |col| == |conv| && k <= |conv|
    requires forall j :: 0 <= j < |conv| ==> col[j] > 0.0
    ensures GroupSumUpTo(conv, col, u, k) >= 0.0
  {
    if k > 0 {
      GroupSumNonNegative(conv, col, u, k - 1);
    }
  }

  /** The credit the rule gives conversion row `i`, from its user's count and
      its rank (the `linear_attribution`, `u_shaped_attribution` and
      `normalized_attribution` columns). */
  function TouchCredit(rule: Rule, conv: seq<Row>, i: nat): real
    requires i < |conv|
  {
    RankInJourney(conv, i);
    var n := CountIn(conv, conv[i].user);
    var r := Rank(conv, i);
    match rule
    case Linear => 1.0 / n as real
    case UShaped => UShapedWeight(n, r)
    case PositionDecay =>
      var raw := RawDecay(conv);
      RawDecayPositive(conv);
      GroupSumCovers(conv, raw, i, |conv|);
      raw[i] / GroupSum(conv, raw, conv[i].user)
  }

  /** The per-row credit column of a rule. */
  function Credits(rule: Rule, conv: seq<Row>): (c: seq<real>)
    ensures |c| == |conv|
  {
    seq(|conv|, i requires 0 <= i < |conv| => TouchCredit(rule, conv, i))
  }

  /** f(1) + ... + f(c). */
  function RankSum(f: nat -> real, c: nat): real
  {
    if c == 0 then 0.0 else RankSum(f, c - 1) + f(c)
  }

  /** When a column's value on each of `u`'s rows depends only on the row's
      rank, the column's sum over `u`'s first rows is the sum over ranks
      1, 2, ... up to the number of those rows. */
  lemma {:induction false} GroupSumByRank(conv: seq<Row>, col: seq<real>, u: string, f: nat -> real, k: nat)
    requires |col| == |conv| && k <= |conv|
    requires forall i :: 0 <= i < |conv| && conv[i].user == u ==> col[i] == f(Rank(conv, i))
    ensures GroupSumUpTo(conv, col, u, k) == RankSum(f, CountIn(conv[..k], u))
  {
    if k > 0 {
      GroupSumByRank(conv, col, u, f, k - 1);
      assert conv[..k][..k - 1] == conv[..k - 1];
    }
  }

  function LinearByRank(n: nat): nat -> real
    requires n > 0
  {
    (r: nat) => 1.0 / n as real
  }

  function UShapedByRank(n: nat): nat -> real
  {
    (r: nat) => UShapedWeight(n, r)
  }

  function DecayByRank(n: nat): nat -> real
  {
    (r: nat) => Power2(n - r)
  }

  function NormalisedDecayByRank(n: nat, total: real): nat -> real
    requires total != 0.0
  {
    (r: nat) => Power2(n - r) / total
  }

  lemma {:induction false} LinearRankSum(n: nat, c: nat)
    requires n > 0
    ensures RankSum(LinearByRank(n), c) == c as real / n as real
  {
    if c > 0 {
      LinearRankSum(n, c - 1);
    }
  }

  lemma {:induction false} DecayRankSum(n: nat, c: nat)
    requires c <= n
    ensures RankSum(DecayByRank(n), c) == Power2(n) - Power2(n - c)
  {
    if c > 0 {
      DecayRankSum(n, c - 1);
      assert Power2(n - (c - 1)) == 2.0 * Power2(n - c);
    }
  }

  lemma {:induction false} NormalisedDecayRankSum(n: nat, total: real, c: nat)
    requires total != 0.0
    ensures RankSum(NormalisedDecayByRank(n, total), c) == RankSum(DecayByRank(n), c) / total
  {
    if c > 0 {
      NormalisedDecayRankSum(n, total, c - 1);
    }
  }

  lemma {:induction false} UShapedRankSum(n: nat, c: nat)
    requires n >= 3 && 1 <= c < n
    ensures RankSum(UShapedByRank(n), c) == 0.4 + (c - 1) as real * (0.2 / (n - 2) as real)
  {
    if c > 1 {
      UShapedRankSum(n, c - 1);
    }
  }

  /** Linear: each of a user's n conversion rows gets 1/n, so the user's
      credits sum to 1. */
  lemma {:induction false} LinearUserTotal(conv: seq<Row>, u: string)
    requires CountIn(conv, u) > 0
    ensures GroupSum(conv, Credits(Linear, conv), u) == 1.0
  {
    var n := CountIn(conv, u);
    var cs := Credits(Linear, conv);
    forall i | 0 <= i < |conv| && conv[i].user == u
      ensures cs[i] == LinearByRank(n)(Rank(conv, i))
    {
    }
    GroupSumByRank(conv, cs, u, LinearByRank(n), |conv|);
    assert conv[..|conv|] == conv;
    LinearRankSum(n, n);
  }

  /** U-shaped: a user's credits sum to 1, except for a two-touch journey,
      where the two 0.4 shares leave 0.8. */
  lemma {:induction false} UShapedUserTotal(conv: seq<Row>, u: string)
    requires CountIn(conv, u) > 0
    ensures GroupSum(conv, Credits(UShaped, conv), u) == if CountIn(conv, u) == 2 then 0.8 else 1.0
  {
    var n := CountIn(conv, u);
    var cs := Credits(UShaped, conv);
    forall i | 0 <= i < |conv| && conv[i].user == u
      ensures cs[i] == UShapedByRank(n)(Rank(conv, i))
    {
    }
    GroupSumByRank(conv, cs, u, UShapedByRank(n), |conv|);
    assert conv[..|conv|] == conv;
    if n >= 3 {
      UShapedRankSum(n, n - 1);
      assert (n - 2) as real * (0.2 / (n - 2) as real) == 0.2;
    }
  }

  /** Position decay: a user's raw weights 2^(n-1), ..., 2, 1 sum to
      2^n - 1, so the group sum the credits are divided by is at least 1. */
  lemma {:induction false} DecayRawUserTotal(conv: seq<Row>, u: string)
    requires CountIn(conv, u) > 0
    ensures GroupSum(conv, RawDecay(conv), u) == Power2(CountIn(conv, u)) - 1.0
    ensures GroupSum(conv, RawDecay(conv), u) >= 1.0
  {
    var n := CountIn(conv, u);
    var raw := RawDecay(conv);
    forall i | 0 <= i < |conv| && conv[i].user == u
      ensures raw[i] == DecayByRank(n)(Rank(conv, i))
    {
    }
    GroupSumByRank(conv, raw, u, DecayByRank(n), |conv|);
    assert conv[..|conv|] == conv;
    DecayRankSum(n, n);
    Power2Monotone(1, n);
  }

  /** Position decay: after dividing by the user's group sum, the user's
      credits sum to 1. */
  lemma {:induction false} DecayUserTotal(conv: seq<Row>, u: string)
    requires CountIn(conv, u) > 0
    ensures GroupSum(conv, Credits(PositionDecay, conv), u) == 1.0
  {
    var n := CountIn(conv, u);
    var raw := RawDecay(conv);
    DecayRawUserTotal(conv, u);
    var total := GroupSum(conv, raw, u);
    forall i | 0 <= i < |conv| && conv[i].user == u
      ensures raw[i] == DecayByRank(n)(Rank(conv, i))
    {
    }
    GroupSumByRank(conv, raw, u, DecayByRank(n), |conv|);
    assert conv[..|conv|] == conv;
    var cs := Credits(PositionDecay, conv);
    forall i | 0 <= i < |conv| && conv[i].user == u
      ensures cs[i] == NormalisedDecayByRank(n, total)(Rank(conv, i))
    {
    }
    GroupSumByRank(conv, cs, u, NormalisedDecayByRank(n, total), |conv|);
    NormalisedDecayRankSum(n, total, n);
  }

  /** The U-shaped credit of a touch by its place in the journey: a lone touch
      gets 1, the first and the last touch 0.4, and a middle touch (which
      exists only when count > 2) 0.2 / (count - 2). Every credit is positive
      and at most 1. */
  lemma {:induction false} UShapedTouch(conv: seq<Row>, i: nat)
    requires i < |conv|
    ensures CountIn(conv, conv[i].user) == 1 ==> TouchCredit(UShaped, conv, i) == 1.0
    ensures (CountIn(conv, conv[i].user) > 1 && (Rank(conv, i) == 1 || Rank(conv, i) == CountIn(conv, conv[i].user)))
              ==> TouchCredit(UShaped, conv, i) == 0.4
    ensures (1 < Rank(conv, i) < CountIn(conv, conv[i].user))
              ==> (CountIn(conv, conv[i].user) > 2
                   && TouchCredit(UShaped, conv, i) == 0.2 / (CountIn(conv, conv[i].user) - 2) as real)
    ensures 0.0 < TouchCredit(UShaped, conv, i) <= 1.0
  {
    RankInJourney(conv, i);
  }

  /** A position-decay credit is the row's raw weight over its user's
      positive group sum. */
  lemma {:induction false} DecayCredit(conv: seq<Row>, i: nat)
    requires i < |conv|
    ensures GroupSum(conv, RawDecay(conv), conv[i].user) > 0.0
    ensures RawDecay(conv)[i] == Power2(CountIn(conv, conv[i].user) - Rank(conv, i))
    ensures TouchCredit(PositionDecay, conv, i) == RawDecay(conv)[i] / GroupSum(conv, RawDecay(conv), conv[i].user)
  {
    RawDecayPositive(conv);
    GroupSumCovers(conv, RawDecay(conv), i, |conv|);
  }

  /** Position decay: a touch weighs twice as much as the same user's next
      touch. */
  lemma {:induction false} DecayHalves(conv: seq<Row>, i: nat, j: nat)
    requires i < |conv| && j < |conv| && conv[i].user == conv[j].user
    requires Rank(conv, j) == Rank(conv, i) + 1
    ensures TouchCredit(PositionDecay, conv, i) == 2.0 * TouchCredit(PositionDecay, conv, j)
  {
    DecayCredit(conv, i);
    DecayCredit(conv, j);
    var n := CountIn(conv, conv[i].user);
    var total := GroupSum(conv, RawDecay(conv), conv[i].user);
    assert Power2(n - Rank(conv, i)) == 2.0 * Power2(n - Rank(conv, j));
    HalfOver(RawDecay(conv)[i], RawDecay(conv)[j], total);
  }

  /** Arithmetic helper for the solver: dividing keeps a factor of two. */
  lemma HalfOver(a: real, b: real, d: real)
    requires a == 2.0 * b && d != 0.0
    ensures a / d == 2.0 * (b / d)
  {
  }

  /** Position decay: the first touch of a journey weighs at least as much as
      any other touch of the same user. */
  lemma {:induction false} DecayFirstTouchWeighsMost(conv: seq<Row>, i: nat, j: nat)
    requires i < |conv| && j < |conv| && conv[i].user == conv[j].user
    requires Rank(conv, i) == 1
    ensures TouchCredit(PositionDecay, conv, i) >= TouchCredit(PositionDecay, conv, j)
  {
    RankInJourney(conv, j);
    DecayCredit(conv, i);
    DecayCredit(conv, j);
    var n := CountIn(conv, conv[i].user);
    Power2Monotone(n - Rank(conv, j), n - 1);
    var raw := RawDecay(conv);
    DivideMonotone(raw[j], raw[i], GroupSum(conv, raw, conv[i].user));
  }

  /** Arithmetic helper for the solver: dividing by a positive number keeps the order. */
  lemma DivideMonotone(a: real, b: real, d: real)
    requires a <= b && d > 0.0
    ensures a / d <= b / d
  {
  }
}

=== FILE: limit_ids.dfy ===
/**
  The id of a channel's limit input: `"limit_"` followed by the channel name
  with every run of whitespace replaced by one underscore, the effect of
  `replace(/\s+/g, '_')`. The same function builds the id when the inputs are
  generated and when they are looked up.
 */
module LimitIds {

  /** The characters the JavaScript class `\s` matches: the ECMAScript
      WhiteSpace and LineTerminator code points. */
  predicate IsWhitespace(c: char)
  {
    var n := c as int;
    (9 <= n <= 13) || n == 32 || n == 0xA0 || n == 0x1680 || (0x2000 <= n <= 0x200A)
    || n == 0x2028 || n == 0x2029 || n == 0x202F || n == 0x205F || n == 0x3000 || n == 0xFEFF
  }

  predicate AllWhitespace(s: string)
  {
    forall i :: 0 <= i < |s| ==> IsWhitespace(s[i])
  }

  predicate NoWhitespace(s: string)
  {
    forall i :: 0 <= i < |s| ==> !IsWhitespace(s[i])
  }

  /** `s` without its leading run of whitespace. */
  function DropWhitespace(s: string): (r: string)
    ensures |r| <= |s|
    ensures r == [] || !IsWhitespace(r[0])
    ensures |s| > 0 && IsWhitespace(s[0]) ==> |r| < |s|
    ensures AllWhitespace(s[..|s| - |r|]) && s[|s| - |r|..] == r
  {
    if |s| > 0 && IsWhitespace(s[0]) then DropWhitespace(s[1..]) else s
  }

  /** Every maximal run of whitespace in `s` replaced by a single `_`. */
  function Sanitise(s: string): (r: string)
    ensures NoWhitespace(r)
    ensures |r| <= |s|
    decreases |s|
  {
    if |s| == 0 then []
    else if IsWhitespace(s[0]) then "_" + Sanitise(DropWhitespace(s))
    else [s[0]] + Sanitise(s[1..])
  }

  /** The id of the limit input of `channel`. */
  function InputId(channel: string): (id: string)
    ensures |id| >= 6 && id[..6] == "limit_"
    ensures NoWhitespace(id[6..])
  {
    "limit_" + Sanitise(channel)
  }

  /** A name without whitespace is its own sanitised form. */
  lemma {:induction false} SanitiseIdentity(s: string)
    requires NoWhitespace(s)
    ensures Sanitise(s) == s
  {
    if |s| > 0 {
      SanitiseIdentity(s[1..]);
    }
  }

  /** Sanitising twice is sanitising once. */
  lemma {:induction false} SanitiseIdempotent(s: string)
    ensures Sanitise(Sanitise(s)) == Sanitise(s)
  {
    SanitiseIdentity(Sanitise(s));
  }

  /** A non-empty whitespace run in front of `q` becomes one underscore,
      however long the run is. */
  lemma {:induction false} SanitiseRun(w: string, q: string)
    requires |w| > 0 && AllWhitespace(w)
    ensures Sanitise(w + q) == "_" + Sanitise(DropWhitespace(q))
  {
    DropRun(w, q);
  }

  lemma {:induction false} DropRun(w: string, q: string)
    requires AllWhitespace(w)
    ensures DropWhitespace(w + q) == DropWhitespace(q)
  {
    if |w| > 0 {
      assert (w + q)[1..] == w[1..] + q;
      DropRun(w[1..], q);
    } else {
      assert w + q == q;
    }
  }

  /** Dropping the whitespace in front of `p + w + q` where `p` holds a
      non-whitespace character only affects `p`. */
  lemma {:induction false} DropInside(p: string, rest: string)
    requires !AllWhitespace(p)
    ensures DropWhitespace(p + rest) == DropWhitespace(p) + rest
    ensures !AllWhitespace(DropWhitespace(p))
    ensures |DropWhitespace(p)| <= |p|
  {
    if |p| > 0 && IsWhitespace(p[0]) {
      assert (p + rest)[1..] == p[1..] + rest;
      assert !AllWhitespace(p[1..]) by {
        var i :| 0 <= i < |p| && !IsWhitespace(p[i]);
        assert p[1..][i - 1] == p[i];
      }
      DropInside(p[1..], rest);
    }
  }

  /** Two names that differ only in the length of one whitespace run get the
      same id. */
  lemma {:induction false} RunLengthIrrelevant(p: string, w1: string, w2: string, q: string)
    requires |w1| > 0 && |w2| > 0 && AllWhitespace(w1) && AllWhitespace(w2)
    ensures Sanitise(p + w1 + q) == Sanitise(p + w2 + q)
    ensures InputId(p + w1 + q) == InputId(p + w2 + q)
    decreases |p|
  {
    if |p| == 0 {
      assert p + w1 + q == w1 + q;
      assert p + w2 + q == w2 + q;
      SanitiseRun(w1, q);
      SanitiseRun(w2, q);
    } else if !IsWhitespace(p[0]) {
      assert (p + w1 + q)[1..] == p[1..] + w1 + q;
      assert (p + w2 + q)[1..] == p[1..] + w2 + q;
      RunLengthIrrelevant(p[1..], w1, w2, q);
    } else if AllWhitespace(p) {
      LeadingRunMerges(p, w1, q);
      LeadingRunMerges(p, w2, q);
    } else {
      var d := DropWhitespace(p);
      LeadingRunSkipped(p, w1, q);
      LeadingRunSkipped(p, w2, q);
      RunLengthIrrelevant(d, w1, w2, q);
    }
  }

  /** A whitespace prefix merges with the run after it. */
  lemma {:induction false} LeadingRunMerges(p: string, w: string, q: string)
    requires |w| > 0 && AllWhitespace(p) && AllWhitespace(w)
    ensures Sanitise(p + w + q) == "_" + Sanitise(DropWhitespace(q))
  {
    assert AllWhitespace(p + w) by {
      forall i | 0 <= i < |p + w| ensures IsWhitespace((p + w)[i]) {
        if i >= |p| { assert (p + w)[i] == w[i - |p|]; }
      }
    }
    SanitiseRun(p + w, q);
  }

  /** A leading run that ends inside `p` becomes an underscore in front of
      the rest of `p`. */
  lemma {:induction false} LeadingRunSkipped(p: string, w: string, q: string)
    requires |p| > 0 && IsWhitespace(p[0]) && !AllWhitespace(p)
    ensures Sanitise(p + w + q) == "_" + Sanitise(DropWhitespace(p) + w + q)
  {
    DropInside(p, w + q);
    assert p + w + q == p + (w + q);
    assert DropWhitespace(p) + (w + q) == DropWhitespace(p) + w + q;
  }

  /** Distinct channel names can share an id: a whitespace run and an
      underscore in the same place give the same input. */
  lemma {:induction false} IdsCanCollide(p: string, w: string, q: string)
    requires NoWhitespace(p) && |w| > 0 && AllWhitespace(w)
    requires q == [] || !IsWhitespace(q[0])
    ensures p + w + q != p + "_" + q
    ensures InputId(p + w + q) == InputId(p + "_" + q)
  {
    assert (p + w + q)[|p|] == w[0];
    assert (p + "_" + q)[|p|] == '_';
    UnderscoreForRun(p, w, q);
  }

  lemma {:induction false} UnderscoreForRun(p: string, w: string, q: string)
    requires NoWhitespace(p) && |w| > 0 && AllWhitespace(w)
    requires q == [] || !IsWhitespace(q[0])
    ensures Sanitise(p + w + q) == Sanitise(p + "_" + q)
  {
    var u := "_";
    assert !IsWhitespace(u[0]);
    NoWhitespaceConcat(p, u);
    SanitisePrefix(p + u, q);
    SanitisePrefix(p, w + q);
    SanitiseRun(w, q);
    assert DropWhitespace(q) == q;
    assert p + w + q == p + (w + q);
    assert p + u + q == (p + u) + q;
    assert p + u + Sanitise(q) == p + (u + Sanitise(q));
  }

  lemma NoWhitespaceConcat(a: string, b: string)
    requires NoWhitespace(a) && NoWhitespace(b)
    ensures NoWhitespace(a + b)
  {
    forall i | 0 <= i < |a + b| ensures !IsWhitespace((a + b)[i]) {
      if i >= |a| { assert (a + b)[i] == b[i - |a|]; }
    }
  }

  /** A whitespace-free prefix passes through unchanged. */
  lemma {:induction false} SanitisePrefix(p: string, q: string)
    requires NoWhitespace(p)
    ensures Sanitise(p + q) == p + Sanitise(q)
  {
    if |p| == 0 {
      assert p + q == q;
    } else {
      assert (p + q)[1..] == p[1..] + q;
      SanitisePrefix(p[1..], q);
    }
  }
}

=== FILE: models.dfy ===
/**
  The six rule-based attribution models of the server. Each one picks
  conversion rows (or gives every conversion row a credit) and then groups by
  channel, producing the model's `Conversions` column; `Weightage` turns that
  column into percentages.
 */
module Models {
  import opened Tables
  import opened Journeys

  /** The channels that occur in `rows`. */
  function Channels(rows: seq<Row>): set<string>
  {
    set i | 0 <= i < |rows| :: rows[i].channel
  }

  /** Reference definition of a channel's group sum: `col` summed over the
      rows on channel `ch`. */
  function ChannelSum(rows: seq<Row>, col: seq<real>, ch: string): real
    requires |col| == |rows|
  {
    if |rows| == 0 then 0.0
    else ChannelSum(rows[..|rows| - 1], col[..|col| - 1], ch)
         + (if rows[|rows| - 1].channel == ch then col[|col| - 1] else 0.0)
  }

  lemma ChannelsSnoc(rows: seq<Row>)
    requires |rows| > 0
    ensures Channels(rows) == Channels(rows[..|rows| - 1]) + {rows[|rows| - 1].channel}
  {
    var init := rows[..|rows| - 1];
    forall ch | ch in Channels(rows) ensures ch in Channels(init) + {rows[|rows| - 1].channel} {
      var i :| 0 <= i < |rows| && rows[i].channel == ch;
      if i < |rows| - 1 {
        assert init[i] == rows[i];
      }
    }
    forall ch | ch in Channels(init) ensures ch in Channels(rows) {
      var i :| 0 <= i < |init| && init[i].channel == ch;
      assert rows[i] == init[i];
    }
  }

  /** `groupby(channel)[col].sum()`, folded over the rows in order: one entry
      per channel that occurs, holding the channel's group sum. */
  function ChannelTotals(rows: seq<Row>, col: seq<real>): (t: Table)
    requires |col| == |rows|
    ensures UniqueKeys(t)
    ensures KeySet(t) == Channels(rows)
  {
    if |rows| == 0 then
      []
    else
      var n := |rows|;
      var prev := ChannelTotals(rows[..n - 1], col[..n - 1]);
      ChannelsSnoc(rows);
      AddTo(prev, rows[n - 1].channel, col[n - 1])
  }

  /** Each channel's entry in the grouped table is that channel's group sum
      (0.0 for a channel that does not occur). */
  lemma {:induction false} ChannelTotalsLookup(rows: seq<Row>, col: seq<real>, ch: string)
    requires |col| == |rows|
    ensures LookupOr(ChannelTotals(rows, col), ch, 0.0) == ChannelSum(rows, col, ch)
  {
    if |rows| > 0 {
      var n := |rows|;
      ChannelTotalsLookup(rows[..n - 1], col[..n - 1], ch);
      AddToLookup(ChannelTotals(rows[..n - 1], col[..n - 1]), rows[n - 1].channel, col[n - 1], ch);
    }
  }

  /** Grouping by channel neither loses nor invents credit: the table's total
      is the column's sum. */
  lemma {:induction false} ChannelTotalsConserve(rows: seq<Row>, col: seq<real>)
    requires |col| == |rows|
    ensures Total(ChannelTotals(rows, col)) == Sum(col)
  {
    if |rows| > 0 {
      var n := |rows|;
      ChannelTotalsConserve(rows[..n - 1], col[..n - 1]);
      AddToTotal(ChannelTotals(rows[..n - 1], col[..n - 1]), rows[n - 1].channel, col[n - 1]);
      assert col == col[..n - 1] + [col[n - 1]];
      SumAppend(col[..n - 1], [col[n - 1]]);
    }
  }

  lemma {:induction false} ChannelSumPositive(rows: seq<Row>, col: seq<real>, ch: string)
    requires |col| == |rows|
    requires forall j :: 0 <= j < |col| ==> col[j] > 0.0
    ensures ChannelSum(rows, col, ch) >= 0.0
    ensures ch in Channels(rows) ==> ChannelSum(rows, col, ch) > 0.0
  {
    if |rows| > 0 {
      ChannelSumPositive(rows[..|rows| - 1], col[..|col| - 1], ch);
      ChannelsSnoc(rows);
    }
  }

  /** With a positive column every group sum is positive, so the table is
      empty exactly when there are no rows, and otherwise has a positive
      total (the `Weightage` division is then defined). */
  lemma {:induction false} ChannelTotalsPositive(rows: seq<Row>, col: seq<real>)
    requires |col| == |rows|
    requires forall j :: 0 <= j < |col| ==> col[j] > 0.0
    ensures forall j :: 0 <= j < |ChannelTotals(rows, col)| ==> ChannelTotals(rows, col)[j].value > 0.0
    ensures |ChannelTotals(rows, col)| == 0 <==> |rows| == 0
    ensures |rows| > 0 ==> Total(ChannelTotals(rows, col)) > 0.0
  {
    var t := ChannelTotals(rows, col);
    forall j | 0 <= j < |t| ensures t[j].value > 0.0 {
      FindPresent(t, j);
      assert t[j].key in KeySet(t) by { assert Keys(t)[j] == t[j].key; }
      ChannelSumPositive(rows, col, t[j].key);
      ChannelTotalsLookup(rows, col, t[j].key);
    }
    if |rows| > 0 {
      assert rows[0].channel in Channels(rows);
      assert |t| > 0;
    }
    PositiveTotal(t);
  }

  function Ones(n: nat): (s: seq<real>)
    ensures |s| == n
    ensures forall j :: 0 <= j < n ==> s[j] == 1.0
  {
    seq(n, j => 1.0)
  }

  lemma {:induction false} SumOnes(n: nat)
    ensures Sum(Ones(n)) == n as real
  {
    if n > 0 {
      SumOnes(n - 1);
      assert Ones(n) == [1.0] + Ones(n - 1);
    }
  }

  /** `value_counts()` of the channel column: how many rows each channel has. */
  function CountByChannel(rows: seq<Row>): Table
  {
    ChannelTotals(rows, Ones(|rows|))
  }

  /** `value_counts()` keeps exactly the channels that occur, the counts are
      positive, and they add up to the number of rows. */
  lemma CountByChannelSpec(rows: seq<Row>)
    ensures KeySet(CountByChannel(rows)) == Channels(rows)
    ensures forall j :: 0 <= j < |CountByChannel(rows)| ==> CountByChannel(rows)[j].value > 0.0
    ensures Total(CountByChannel(rows)) == |rows| as real
  {
    ChannelTotalsPositive(rows, Ones(|rows|));
    ChannelTotalsConserve(rows, Ones(|rows|));
    SumOnes(|rows|);
  }

  /** `groupby(user).first()`: the first row of every user, in data order. */
  function FirstPerUser(s: seq<Row>): (f: seq<Row>)
    ensures forall u :: CountIn(f, u) == if CountIn(s, u) > 0 then 1 else 0
    ensures forall i :: 0 <= i < |f| ==> |Journey(s, f[i].user)| > 0 && f[i] == Journey(s, f[i].user)[0]
  {
    if |s| == 0 then
      []
    else
      var init := s[..|s| - 1];
      var x := s[|s| - 1];
      var prev := FirstPerUser(init);
      var f := prev + (if CountIn(init, x.user) == 0 then [x] else []);
      assert f[..|prev|] == prev;
      forall u ensures CountIn(f, u) == if CountIn(s, u) > 0 then 1 else 0 {
        assert s[..|s| - 1] == init;
        if |f| > |prev| {
          assert f[..|f| - 1] == prev;
        } else {
          assert f == prev;
        }
      }
      forall i | 0 <= i < |f| ensures |Journey(s, f[i].user)| > 0 && f[i] == Journey(s, f[i].user)[0] {
        if i < |prev| {
          assert Journey(s, f[i].user) == Journey(init, f[i].user) + (if x.user == f[i].user then [x] else []);
        } else {
          JourneyLength(init, x.user);
          assert Journey(init, x.user) == [];
        }
      }
      f
  }

  /** The conversion rows among the first `k` rows that are one of their
      user's last two rows: `groupby(user).tail(2)` followed by the
      `conversion == 1` filter. */
  function LastTwoConversions(rows: seq<Row>, k: nat): (l: seq<Row>)
    requires k <= |rows|
    ensures |l| <= k
  {
    if k == 0 then
      []
    else
      var last := rows[k - 1];
      LastTwoConversions(rows, k - 1) + (if KeptAt(rows, k - 1) then [last] else [])
  }

  /** Row `i` converts and at most one later row belongs to its user. */
  predicate KeptAt(rows: seq<Row>, i: nat)
    requires i < |rows|
  {
    rows[i].conversion == 1 && CountIn(rows[i + 1..], rows[i].user) < 2
  }

  /** A row is among the kept rows iff it is one of the first `k` rows,
      converts, and at most one later row has its user. */
  lemma {:induction false} LastTwoMembers(rows: seq<Row>, k: nat)
    requires k <= |rows|
    ensures forall x :: x in LastTwoConversions(rows, k) <==>
      exists i :: 0 <= i < k && rows[i] == x && KeptAt(rows, i)
  {
    if k > 0 {
      LastTwoMembers(rows, k - 1);
      var prev := LastTwoConversions(rows, k - 1);
      forall x ensures x in LastTwoConversions(rows, k) <==> exists i :: 0 <= i < k && rows[i] == x && KeptAt(rows, i) {
        if x in LastTwoConversions(rows, k) && x !in prev {
          assert rows[k - 1] == x && KeptAt(rows, k - 1);
        }
        if exists i :: 0 <= i < k && rows[i] == x && KeptAt(rows, i) {
          var i :| 0 <= i < k && rows[i] == x && KeptAt(rows, i);
          if i < k - 1 {
            assert x in prev;
          }
        }
      }
    }
  }

  /** Where a user's last two rows begin within the user's `n` rows. */
  function LastTwoStart(n: nat): nat
  {
    if n >= 2 then n - 2 else 0
  }

  /** `s` without its first `m` elements (empty when `m` exceeds `|s|`). */
  function DropFirst<T>(s: seq<T>, m: nat): seq<T>
  {
    if m <= |s| then s[m..] else []
  }

  lemma {:induction false} CountInConcat(a: seq<Row>, b: seq<Row>, u: string)
    ensures CountIn(a + b, u) == CountIn(a, u) + CountIn(b, u)
  {
    if |b| > 0 {
      var b' := b[..|b| - 1];
      CountInConcat(a, b', u);
      assert (a + b)[..|a + b| - 1] == a + b';
    } else {
      assert a + b == a;
    }
  }

  lemma JourneySnoc(s: seq<Row>, x: Row, u: string)
    ensures Journey(s + [x], u) == Journey(s, u) + (if x.user == u then [x] else [])
  {
    assert (s + [x])[..|s|] == s;
  }

  lemma ConversionsSnoc(s: seq<Row>, x: Row)
    ensures Conversions(s + [x]) == Conversions(s) + (if x.conversion == 1 then [x] else [])
  {
    assert (s + [x])[..|s|] == s;
  }

  /** Row `k` of user `u` is kept iff it converts and at least
      `LastTwoStart` rows of the user come before it. */
  lemma {:induction false} KeptAtByCount(rows: seq<Row>, u: string, k: nat)
    requires k < |rows| && rows[k].user == u
    ensures KeptAt(rows, k) <==>
      rows[k].conversion == 1 && |Journey(rows[..k], u)| >= LastTwoStart(CountIn(rows, u))
  {
    assert rows == rows[..k + 1] + rows[k + 1..];
    CountInConcat(rows[..k + 1], rows[k + 1..], u);
    assert rows[..k + 1] == rows[..k] + [rows[k]];
    CountInConcat(rows[..k], [rows[k]], u);
    assert CountIn([rows[k]], u) == 1 by {
      assert [rows[k]][..0] == [];
    }
    JourneyLength(rows[..k], u);
  }

  /** Extending a user's rows by one moves the conversion rows after the
      first `lo` on by that row exactly when it converts and `lo` rows
      precede it. */
  lemma DropFirstSnoc(jp: seq<Row>, x: Row, lo: nat)
    ensures Conversions(DropFirst(jp + [x], lo)) ==
      Conversions(DropFirst(jp, lo)) + (if x.conversion == 1 && |jp| >= lo then [x] else [])
  {
    if lo <= |jp| {
      assert DropFirst(jp + [x], lo) == DropFirst(jp, lo) + [x];
      ConversionsSnoc(DropFirst(jp, lo), x);
    } else if lo == |jp| + 1 {
      assert DropFirst(jp + [x], lo) == [];
    }
  }

  /** One more row of the log adds to the user's kept rows what it adds to
      the conversion rows among the user's last two. */
  lemma {:induction false} LastTwoStep(rows: seq<Row>, u: string, k: nat)
    requires 0 < k <= |rows|
    ensures Journey(LastTwoConversions(rows, k), u) ==
      Journey(LastTwoConversions(rows, k - 1), u) + (if rows[k - 1].user == u && KeptAt(rows, k - 1) then [rows[k - 1]] else [])
    ensures Journey(rows[..k], u) == Journey(rows[..k - 1], u) + (if rows[k - 1].user == u then [rows[k - 1]] else [])
    ensures rows[k - 1].user == u ==> (KeptAt(rows, k - 1) <==>
      rows[k - 1].conversion == 1 && |Journey(rows[..k - 1], u)| >= LastTwoStart(CountIn(rows, u)))
  {
    var x := rows[k - 1];
    if x.user == u {
      KeptAtByCount(rows, u, k - 1);
    }
    var prev := LastTwoConversions(rows, k - 1);
    if KeptAt(rows, k - 1) {
      JourneySnoc(prev, x, u);
    } else {
      assert LastTwoConversions(rows, k) == prev;
    }
    assert rows[..k] == rows[..k - 1] + [x];
    JourneySnoc(rows[..k - 1], x, u);
  }

  /** The induction step of `LastTwoPrefix`, over plain sequences: the row
      `x` extends the user's rows iff it is the user's, and the kept rows iff
      it is also kept. */
  lemma LastTwoSnoc(kept: seq<Row>, jp: seq<Row>, x: Row, u: string, lo: nat, keep: bool)
    requires kept == Conversions(DropFirst(jp, lo))
    requires x.user == u ==> (keep <==> x.conversion == 1 && |jp| >= lo)
    ensures kept + (if x.user == u && keep then [x] else []) ==
      Conversions(DropFirst(jp + (if x.user == u then [x] else []), lo))
  {
    if x.user == u {
      DropFirstSnoc(jp, x, lo);
    } else {
      assert jp + [] == jp;
    }
  }

  /** The kept rows among the first `k` rows, restricted to one user, are the
      conversion rows among that user's last two rows seen so far. */
  lemma {:induction false} LastTwoPrefix(rows: seq<Row>, u: string, k: nat)
    requires k <= |rows|
    ensures Journey(LastTwoConversions(rows, k), u) ==
      Conversions(DropFirst(Journey(rows[..k], u), LastTwoStart(CountIn(rows, u))))
  {
    if k == 0 {
      assert Journey(rows[..0], u) == [];
    } else {
      var x := rows[k - 1];
      LastTwoPrefix(rows, u, k - 1);
      LastTwoStep(rows, u, k);
      LastTwoSnoc(Journey(LastTwoConversions(rows, k - 1), u), Journey(rows[..k - 1], u), x, u,
        LastTwoStart(CountIn(rows, u)), KeptAt(rows, k - 1));
    }
  }

  /** Last non-direct keeps, of each user, exactly the conversion rows among
      the user's last two rows, in data order. */
  lemma {:induction false} LastTwoJourney(rows: seq<Row>, u: string)
    ensures var j := Journey(rows, u);
      Journey(LastTwoConversions(rows, |rows|), u) == Conversions(j[LastTwoStart(|j|)..])
  {
    LastTwoPrefix(rows, u, |rows|);
    assert rows[..|rows|] == rows;
    JourneyLength(rows, u);
  }

  /** Last touch: every conversion row counts for its channel. */
  function LastTouchCounts(rows: seq<Row>): Table
  {
    CountByChannel(Conversions(rows))
  }

  /** First touch: each converting user's first conversion row counts. */
  function FirstTouchCounts(rows: seq<Row>): Table
  {
    CountByChannel(FirstPerUser(Conversions(rows)))
  }

  /** Last non-direct: for each user, the first conversion row among the
      user's last two rows counts. */
  function LastNonDirectCounts(rows: seq<Row>): Table
  {
    CountByChannel(FirstPerUser(LastTwoConversions(rows, |rows|)))
  }

  /** Linear, U-shaped and position decay: the credits of the conversion rows
      summed per channel. */
  function CreditTotals(rule: Rule, rows: seq<Row>): Table
  {
    var conv := Conversions(rows);
    ChannelTotals(conv, Credits(rule, conv))
  }

  /** First touch counts one row per converting user, and that row is the
      user's first conversion row. */
  lemma FirstTouchPicks(rows: seq<Row>, u: string)
    ensures CountIn(FirstPerUser(Conversions(rows)), u) == if CountIn(Conversions(rows), u) > 0 then 1 else 0
    ensures forall x :: x in FirstPerUser(Conversions(rows)) ==> x == Journey(Conversions(rows), x.user)[0]
  {
  }

  /** Last non-direct counts at most one row per user: a user is counted iff
      one of the user's last two rows converts, and then with the earlier such
      row. */
  lemma LastNonDirectPicks(rows: seq<Row>, u: string)
    ensures CountIn(FirstPerUser(LastTwoConversions(rows, |rows|)), u) <= 1
    ensures CountIn(FirstPerUser(LastTwoConversions(rows, |rows|)), u) == 1 <==>
      exists i :: 0 <= i < |rows| && rows[i].user == u && KeptAt(rows, i)
    ensures var j := Journey(rows, u);
      var lastTwo := Conversions(j[LastTwoStart(|j|)..]);
      && (CountIn(FirstPerUser(LastTwoConversions(rows, |rows|)), u) == 1 <==> |lastTwo| > 0)
      && forall x :: x in FirstPerUser(LastTwoConversions(rows, |rows|)) && x.user == u ==>
           |lastTwo| > 0 && x == lastTwo[0]
  {
    var l := LastTwoConversions(rows, |rows|);
    LastTwoMembers(rows, |rows|);
    CountInPositive(l, u);
    LastTwoJourney(rows, u);
    JourneyLength(l, u);
  }

  /** A user is counted in `s` iff some row of `s` belongs to the user. */
  lemma {:induction false} CountInPositive(s: seq<Row>, u: string)
    ensures CountIn(s, u) > 0 <==> exists x :: x in s && x.user == u
  {
    if |s| > 0 {
      var init := s[..|s| - 1];
      CountInPositive(init, u);
      assert s == init + [s[|s| - 1]];
      if CountIn(init, u) > 0 {
        var x :| x in init && x.user == u;
        assert x in s;
      }
    }
  }

  lemma CreditsPositive(rule: Rule, conv: seq<Row>)
    ensures forall j :: 0 <= j < |conv| ==> Credits(rule, conv)[j] > 0.0
  {
    forall j | 0 <= j < |conv| ensures Credits(rule, conv)[j] > 0.0 {
      RankInJourney(conv, j);
      match rule
      case Linear =>
      case UShaped => UShapedTouch(conv, j);
      case PositionDecay =>
        DecayCredit(conv, j);
        Power2Positive(CountIn(conv, conv[j].user) - Rank(conv, j));
    }
  }

  /** Every model's column is positive, so it is empty or has a positive
      total; each column is empty exactly when no row is picked. */
  lemma {:induction false} ModelColumnsPositive(rows: seq<Row>)
    ensures |LastTouchCounts(rows)| == 0 || Total(LastTouchCounts(rows)) > 0.0
    ensures |FirstTouchCounts(rows)| == 0 || Total(FirstTouchCounts(rows)) > 0.0
    ensures |LastNonDirectCounts(rows)| == 0 || Total(LastNonDirectCounts(rows)) > 0.0
    ensures forall rule :: |CreditTotals(rule, rows)| == 0 || Total(CreditTotals(rule, rows)) > 0.0
  {
    var conv := Conversions(rows);
    CountColumnPositive(conv);
    CountColumnPositive(FirstPerUser(conv));
    CountColumnPositive(FirstPerUser(LastTwoConversions(rows, |rows|)));
    forall rule ensures |CreditTotals(rule, rows)| == 0 || Total(CreditTotals(rule, rows)) > 0.0 {
      CreditColumnPositive(rule, rows);
    }
  }

  lemma CountColumnPositive(s: seq<Row>)
    ensures |CountByChannel(s)| == 0 || Total(CountByChannel(s)) > 0.0
  {
    ChannelTotalsPositive(s, Ones(|s|));
  }

  lemma CreditColumnPositive(rule: Rule, rows: seq<Row>)
    ensures |CreditTotals(rule, rows)| == 0 || Total(CreditTotals(rule, rows)) > 0.0
  {
    var conv := Conversions(rows);
    CreditsPositive(rule, conv);
    ChannelTotalsPositive(conv, Credits(rule, conv));
  }

  /** Last touch: a channel's count is its number of conversion rows, and the
      counts add up to the number of conversion rows. */
  lemma LastTouchCountsSpec(rows: seq<Row>, ch: string)
    ensures LookupOr(LastTouchCounts(rows), ch, 0.0) == ChannelSum(Conversions(rows), Ones(|Conversions(rows)|), ch)
    ensures Total(LastTouchCounts(rows)) == |Conversions(rows)| as real
  {
    CountByChannelSpec(Conversions(rows));
    ChannelTotalsLookup(Conversions(rows), Ones(|Conversions(rows)|), ch);
  }
}

=== FILE: protocol.dfy ===
/**
  The values exchanged between the browser controller and the server: the
  attribution result set, the analytics summary, the budget request and the
  three shapes a reply can take on the client.
 */
module Protocol {
  import opened Tables

  /** One channel's scores under the seven models plus their mean, each a
      percentage of that model's credit. */
  datatype Scores = Scores(
    lastTouch: real,
    firstTouch: real,
    lastNonDirect: real,
    linear: real,
    uShaped: real,
    positionDecay: real,
    markov: real,
    mean: real)

  /** The `results` object: channel -> scores, in the order the keys arrive. */
  type ResultSet = seq<Entry<Scores>>

  /** One channel's row of `channel_stats`. */
  datatype ChannelStats = ChannelStats(
    interactions: nat,
    conversions: nat,
    conversionRate: real,
    avgConversionValue: real)

  /** The `analytics` object. */
  datatype Analytics = Analytics(
    totalInteractions: nat,
    totalConversions: nat,
    conversionRate: real,
    uniqueUsers: nat,
    channelStats: seq<Entry<ChannelStats>>)

  /** The payload of a successful attribution reply. */
  datatype AttributionPayload = AttributionPayload(results: ResultSet, analytics: Analytics)

  /** The body of `POST /optimize_budget`. The budget is `None` when the
      budget box was blank: `parseFloat` gives NaN there, which travels as
      JSON `null`. */
  datatype BudgetRequest = BudgetRequest(
    budget: Option<real>,
    channelLimits: map<string, real>,
    meanAttributions: Table)

  /** What a remote call gives the controller: a reply with `success: true`,
      one with `success: false` (the `error` and `traceback` fields may be
      missing), or a thrown error (network failure, unreadable body), carried
      as its string form. */
  datatype Reply<T> =
    | Success(payload: T)
    | LogicalFailure(error: Option<string>, traceback: Option<string>)
    | TransportFailure(reason: string)

  /** The `Mean` projection of a result set, in key order. */
  function MeanProjection(results: ResultSet): (t: Table)
    ensures Keys(t) == Keys(results)
    ensures forall i :: 0 <= i < |t| ==> t[i].value == results[i].value.mean
  {
    if |results| == 0 then []
    else [Entry(results[0].key, results[0].value.mean)] + MeanProjection(results[1..])
  }
}

=== FILE: report.dfy ===
/**
  The attribution report the server sends back: the seven models' weightages
  combined per channel with their mean, and the analytics summary with its
  per-channel statistics.
 */
module Report {
  import opened Tables
  import opened Journeys
  import opened Models
  import opened Protocol

  /** The seven `Weightage` columns the combine step reads. */
  datatype ModelTables = ModelTables(
    lastTouch: Table,
    firstTouch: Table,
    lastNonDirect: Table,
    linear: Table,
    uShaped: Table,
    positionDecay: Table,
    markov: Table)

  /** Every channel that any of the seven models reports. */
  function AllChannels(m: ModelTables): set<string>
  {
    KeySet(m.lastTouch) + KeySet(m.firstTouch) + KeySet(m.lastNonDirect) + KeySet(m.linear)
    + KeySet(m.uShaped) + KeySet(m.positionDecay) + KeySet(m.markov)
  }

  /** The six rule-based models run over the log, each reduced to its
      `Weightage` column; the Markov column is supplied. */
  function RunModels(rows: seq<Row>, markov: Table): ModelTables
  {
    ModelColumnsPositive(rows);
    ModelTables(
      Weightage(LastTouchCounts(rows)),
      Weightage(FirstTouchCounts(rows)),
      Weightage(LastNonDirectCounts(rows)),
      Weightage(CreditTotals(Linear, rows)),
      Weightage(CreditTotals(UShaped, rows)),
      Weightage(CreditTotals(PositionDecay, rows)),
      markov)
  }

  /** One channel's combined entry: each model's weightage, 0.0 where the
      model does not report the channel, and the mean of the seven. */
  function ModelScores(m: ModelTables, ch: string): (s: Scores)
  {
    var lt := LookupOr(m.lastTouch, ch, 0.0);
    var ft := LookupOr(m.firstTouch, ch, 0.0);
    var lnd := LookupOr(m.lastNonDirect, ch, 0.0);
    var lin := LookupOr(m.linear, ch, 0.0);
    var us := LookupOr(m.uShaped, ch, 0.0);
    var pd := LookupOr(m.positionDecay, ch, 0.0);
    var mk := LookupOr(m.markov, ch, 0.0);
    Scores(lt, ft, lnd, lin, us, pd, mk, (lt + ft + lnd + lin + us + pd + mk) / 7.0)
  }

  function ScoreRows(order: seq<string>, m: ModelTables): (r: ResultSet)
    ensures |r| == |order|
    ensures forall i :: 0 <= i < |r| ==> r[i] == Entry(order[i], ModelScores(m, order[i]))
  {
    if |order| == 0 then [] else [Entry(order[0], ModelScores(m, order[0]))] + ScoreRows(order[1..], m)
  }

  /** The combined result set, built by iterating the set of all channels in
      the order `order` lists them. */
  function Combine(order: seq<string>, m: ModelTables): (r: ResultSet)
    requires Distinct(order) && (set k | k in order) == AllChannels(m)
    ensures Keys(r) == order && UniqueKeys(r)
    ensures KeySet(r) == AllChannels(m)
    ensures forall i :: 0 <= i < |r| ==>
      && r[i].value.lastTouch == LookupOr(m.lastTouch, r[i].key, 0.0)
      && r[i].value.firstTouch == LookupOr(m.firstTouch, r[i].key, 0.0)
      && r[i].value.lastNonDirect == LookupOr(m.lastNonDirect, r[i].key, 0.0)
      && r[i].value.linear == LookupOr(m.linear, r[i].key, 0.0)
      && r[i].value.uShaped == LookupOr(m.uShaped, r[i].key, 0.0)
      && r[i].value.positionDecay == LookupOr(m.positionDecay, r[i].key, 0.0)
      && r[i].value.markov == LookupOr(m.markov, r[i].key, 0.0)
    ensures forall i :: 0 <= i < |r| ==> r[i].value == ModelScores(m, r[i].key)
  {
    var r := ScoreRows(order, m);
    assert Keys(r) == order;
    r
  }

  /** The mean is the arithmetic mean of the seven scores: it lies within any
      bounds all seven respect, and seven times the mean is their sum. */
  lemma MeanOfSeven(m: ModelTables, ch: string, lo: real, hi: real)
    requires var s := ModelScores(m, ch);
      && lo <= s.lastTouch <= hi && lo <= s.firstTouch <= hi && lo <= s.lastNonDirect <= hi
      && lo <= s.linear <= hi && lo <= s.uShaped <= hi && lo <= s.positionDecay <= hi
      && lo <= s.markov <= hi
    ensures var s := ModelScores(m, ch);
      && lo <= s.mean <= hi
      && 7.0 * s.mean == s.lastTouch + s.firstTouch + s.lastNonDirect + s.linear + s.uShaped
                         + s.positionDecay + s.markov
  {
  }

  lemma {:induction false} MeanColumnSum(order: seq<string>, m: ModelTables)
    ensures Total(MeanProjection(ScoreRows(order, m))) ==
      (ColumnSum(m.lastTouch, order) + ColumnSum(m.firstTouch, order) + ColumnSum(m.lastNonDirect, order)
       + ColumnSum(m.linear, order) + ColumnSum(m.uShaped, order) + ColumnSum(m.positionDecay, order)
       + ColumnSum(m.markov, order)) / 7.0
  {
    if |order| > 0 {
      MeanColumnSum(order[1..], m);
      var r := ScoreRows(order, m);
      assert r[1..] == ScoreRows(order[1..], m);
      assert MeanProjection(r)[1..] == MeanProjection(r[1..]);
    }
  }

  /** When every model's weightages sum to 100 over its channels, the `Mean`
      column of the combined result also sums to 100. */
  lemma {:induction false} MeanColumnSumsTo100(order: seq<string>, m: ModelTables)
    requires Distinct(order) && (set k | k in order) == AllChannels(m)
    requires UniqueKeys(m.lastTouch) && UniqueKeys(m.firstTouch) && UniqueKeys(m.lastNonDirect)
    requires UniqueKeys(m.linear) && UniqueKeys(m.uShaped) && UniqueKeys(m.positionDecay) && UniqueKeys(m.markov)
    requires Total(m.lastTouch) == 100.0 && Total(m.firstTouch) == 100.0 && Total(m.lastNonDirect) == 100.0
    requires Total(m.linear) == 100.0 && Total(m.uShaped) == 100.0 && Total(m.positionDecay) == 100.0
    requires Total(m.markov) == 100.0
    ensures Total(MeanProjection(Combine(order, m))) == 100.0
  {
    MeanColumnSum(order, m);
    ColumnSumIsTotal(m.lastTouch, order);
    ColumnSumIsTotal(m.firstTouch, order);
    ColumnSumIsTotal(m.lastNonDirect, order);
    ColumnSumIsTotal(m.linear, order);
    ColumnSumIsTotal(m.uShaped, order);
    ColumnSumIsTotal(m.positionDecay, order);
    ColumnSumIsTotal(m.markov, order);
  }

  /** The rows on channel `ch`, in data order. */
  function ChannelRows(rows: seq<Row>, ch: string): (c: seq<Row>)
    ensures |c| <= |rows|
    ensures forall x :: x in c <==> x in rows && x.channel == ch
  {
    if |rows| == 0 then []
    else
      var init := rows[..|rows| - 1];
      assert rows == init + [rows[|rows| - 1]];
      ChannelRows(init, ch) + (if rows[|rows| - 1].channel == ch then [rows[|rows| - 1]] else [])
  }

  /** Sum of the conversion values of `rows`. */
  function ValueSum(rows: seq<Row>): real
  {
    if |rows| == 0 then 0.0 else rows[0].conversionValue + ValueSum(rows[1..])
  }

  /** One channel's statistics: its interactions, its conversions, the
      conversion rate in percent (0.0 for a channel without interactions) and
      the mean conversion value of its conversions (0.0 when there are
      none). */
  function StatsFor(rows: seq<Row>, ch: string): (st: ChannelStats)
    ensures var c := ChannelRows(rows, ch);
      && st.interactions == |c|
      && st.conversions == |Conversions(c)|
      && st.conversions <= st.interactions
      && st.conversionRate == Percent(st.conversions, st.interactions)
      && st.avgConversionValue == MeanValue(ValueSum(Conversions(c)), st.conversions)
  {
    var channelData := ChannelRows(rows, ch);
    var convData := Conversions(channelData);
    ChannelStats(|channelData|, |convData|, Percent(|convData|, |channelData|), MeanValue(ValueSum(convData), |convData|))
  }

  /** `part` as a percentage of `whole`, 0.0 when `whole` is zero. */
  function Percent(part: nat, whole: nat): (r: real)
    requires part <= whole
    ensures whole == 0 ==> r == 0.0
    ensures whole > 0 ==> r * whole as real == part as real * 100.0
    ensures 0.0 <= r <= 100.0
  {
    if whole == 0 then 0.0
    else
      PercentBounds(part as real, whole as real);
      PercentOf(part as real, whole as real)
  }

  /** The mean of `count` values summing to `sum`, 0.0 when there are none. */
  function MeanValue(sum: real, count: nat): (r: real)
    ensures count == 0 ==> r == 0.0
    ensures count > 0 ==> r * count as real == sum
  {
    if count == 0 then 0.0 else sum / count as real
  }

  function StatsRows(rows: seq<Row>, order: seq<string>): (s: seq<Entry<ChannelStats>>)
    ensures Keys(s) == order
    ensures forall i :: 0 <= i < |s| ==> s[i].value == StatsFor(rows, order[i])
  {
    if |order| == 0 then [] else [Entry(order[0], StatsFor(rows, order[0]))] + StatsRows(rows, order[1..])
  }

  /** The distinct users of the log (`nunique` of the cookie column). */
  function Users(rows: seq<Row>): set<string>
  {
    set i | 0 <= i < |rows| :: rows[i].user
  }

  /** The whole `run_attribution` computation over a log. The overall
      conversion rate divides by the number of rows without a guard, so an
      empty log raises `ZeroDivisionError` and the reply reports failure with
      the exception text and the formatted traceback. */
  function RunAttribution(rows: seq<Row>, markov: Table, order: seq<string>, traceback: string)
    : (reply: Reply<AttributionPayload>)
    requires Distinct(order) && (set k | k in order) == AllChannels(RunModels(rows, markov))
    ensures reply.Success? <==> |rows| > 0
    ensures reply.LogicalFailure? <==> |rows| == 0
    ensures reply.LogicalFailure? ==> reply.error == Some("division by zero") && reply.traceback == Some(traceback)
    ensures reply.Success? ==>
      && reply.payload.results == Combine(order, RunModels(rows, markov))
      && Keys(reply.payload.analytics.channelStats) == Keys(reply.payload.results)
      && reply.payload.analytics.totalInteractions == |rows|
      && reply.payload.analytics.totalConversions == |Conversions(rows)|
      && reply.payload.analytics.totalConversions <= reply.payload.analytics.totalInteractions
      && reply.payload.analytics.conversionRate == Percent(|Conversions(rows)|, |rows|)
      && 0.0 <= reply.payload.analytics.conversionRate <= 100.0
      && reply.payload.analytics.uniqueUsers == |Users(rows)|
      && reply.payload.analytics.channelStats == StatsRows(rows, order)
  {
    if |rows| == 0 then
      LogicalFailure(Some("division by zero"), Some(traceback))
    else
      var m := RunModels(rows, markov);
      var results := Combine(order, m);
      var totalConversions := |Conversions(rows)|;
      var totalInteractions := |rows|;
      var rate := Percent(totalConversions, totalInteractions);
      var analytics := Analytics(totalInteractions, totalConversions, rate, |Users(rows)|, StatsRows(rows, order));
      Success(AttributionPayload(results, analytics))
  }
}

=== FILE: tables.dfy ===
/**
  Channel-keyed tables. The system passes per-channel numbers around as
  pandas Series on the server and as JSON objects on the client; both are
  modelled here as association lists whose order is the iteration order.
 */
module Tables {

  datatype Option<+T> = None | Some(value: T)

  /** One key/value pair of an association list. */
  datatype Entry<V> = Entry(key: string, value: V)

  type Table = seq<Entry<real>>

  /** Sum of a sequence of reals. */
  function Sum(s: seq<real>): real
  {
    if |s| == 0 then 0.0 else s[0] + Sum(s[1..])
  }

  lemma {:induction false} SumAppend(a: seq<real>, b: seq<real>)
    ensures Sum(a + b) == Sum(a) + Sum(b)
  {
    if |a| > 0 {
      assert (a + b)[1..] == a[1..] + b;
      SumAppend(a[1..], b);
    } else {
      assert a + b == b;
    }
  }

  function Keys<V>(a: seq<Entry<V>>): (ks: seq<string>)
    ensures |ks| == |a|
    ensures forall i :: 0 <= i < |a| ==> ks[i] == a[i].key
  {
    if |a| == 0 then [] else [a[0].key] + Keys(a[1..])
  }

  function KeySet<V>(a: seq<Entry<V>>): set<string>
  {
    set k | k in Keys(a)
  }

  predicate Distinct(ks: seq<string>)
  {
    forall i, j :: 0 <= i < j < |ks| ==> ks[i] != ks[j]
  }

  predicate UniqueKeys<V>(a: seq<Entry<V>>)
  {
    forall i, j :: 0 <= i < j < |a| ==> a[i].key != a[j].key
  }

  /** The value stored under `k`: the first entry with that key, as a JSON
      object or a dict lookup sees it. */
  function Find<V>(a: seq<Entry<V>>, k: string): Option<V>
  {
    if |a| == 0 then None
    else if a[0].key == k then Some(a[0].value)
    else Find(a[1..], k)
  }

  /** `t[k] if k in t else d`. */
  function LookupOr<V>(a: seq<Entry<V>>, k: string, d: V): V
  {
    match Find(a, k)
    case Some(v) => v
    case None => d
  }

  lemma {:induction false} FindPresent<V>(a: seq<Entry<V>>, i: nat)
    requires UniqueKeys(a) && i < |a|
    ensures Find(a, a[i].key) == Some(a[i].value)
  {
    if i > 0 {
      FindPresent(a[1..], i - 1);
    }
  }

  lemma KeySetCons<V>(a: seq<Entry<V>>)
    requires |a| > 0
    ensures KeySet(a) == {a[0].key} + KeySet(a[1..])
  {
    assert Keys(a) == [a[0].key] + Keys(a[1..]);
  }

  /** The head key of a table with unique keys does not occur in its tail. */
  lemma HeadKeyNotInTail<V>(a: seq<Entry<V>>)
    requires UniqueKeys(a) && |a| > 0
    ensures a[0].key !in KeySet(a[1..])
  {
  }

  lemma {:induction false} FindAbsent<V>(a: seq<Entry<V>>, k: string)
    requires k !in KeySet(a)
    ensures Find(a, k) == None
  {
    if |a| > 0 {
      KeySetCons(a);
      FindAbsent(a[1..], k);
    }
  }

  lemma {:induction false} FindFound<V>(a: seq<Entry<V>>, k: string)
    ensures Find(a, k).Some? <==> k in KeySet(a)
    ensures Find(a, k).Some? ==> exists i :: 0 <= i < |a| && a[i].key == k && a[i].value == Find(a, k).value
  {
    if |a| > 0 {
      KeySetCons(a);
      FindFound(a[1..], k);
      if a[0].key != k && Find(a, k).Some? {
        var i :| 0 <= i < |a[1..]| && a[1..][i].key == k && a[1..][i].value == Find(a, k).value;
        assert a[i + 1].key == k && a[i + 1].value == Find(a, k).value;
      }
    }
  }

  /** The sum of a table's values. */
  function Total(t: Table): real
  {
    if |t| == 0 then 0.0 else t[0].value + Total(t[1..])
  }

  lemma {:induction false} TotalAppend(a: Table, b: Table)
    ensures Total(a + b) == Total(a) + Total(b)
  {
    if |a| > 0 {
      assert (a + b)[1..] == a[1..] + b;
      TotalAppend(a[1..], b);
    } else {
      assert a + b == b;
    }
  }

  /** Grouped summation: add `v` to the entry for `k`, appending a new entry
      when `k` is not yet a key (pandas `groupby(...).sum()`, one row at a
      time). */
  function AddTo(t: Table, k: string, v: real): (r: Table)
    requires UniqueKeys(t)
    ensures UniqueKeys(r)
    ensures KeySet(r) == KeySet(t) + {k}
  {
    if |t| == 0 then
      assert Keys([Entry(k, v)]) == [k];
      [Entry(k, v)]
    else if t[0].key == k then
      KeySetCons(t);
      var r := [Entry(k, t[0].value + v)] + t[1..];
      assert r[1..] == t[1..];
      KeySetCons(r);
      r
    else
      var rest := AddTo(t[1..], k, v);
      HeadKeyNotInTail(t);
      KeySetCons(t);
      var r := [t[0]] + rest;
      assert r[1..] == rest;
      KeySetCons(r);
      assert UniqueKeys(r) by {
        forall i, j | 0 <= i < j < |r| ensures r[i].key != r[j].key {
          if i == 0 {
            assert r[j].key == Keys(rest)[j - 1];
          }
        }
      }
      r
  }

  /** Adding `v` under `k` raises the table total by `v`. */
  lemma {:induction false} AddToTotal(t: Table, k: string, v: real)
    requires UniqueKeys(t)
    ensures Total(AddTo(t, k, v)) == Total(t) + v
  {
    if |t| > 0 && t[0].key != k {
      AddToTotal(t[1..], k, v);
    }
  }

  /** Adding `v` under `k` raises the value looked up under `k` by `v` and
      leaves every other key's value alone. */
  lemma {:induction false} AddToLookup(t: Table, k: string, v: real, k': string)
    requires UniqueKeys(t)
    ensures LookupOr(AddTo(t, k, v), k', 0.0) == LookupOr(t, k', 0.0) + (if k' == k then v else 0.0)
  {
    if |t| > 0 {
      if t[0].key == k {
        if k' != k {
          assert AddTo(t, k, v)[1..] == t[1..];
        }
      } else {
        AddToLookup(t[1..], k, v, k');
      }
    } else {
      if k' != k {
        assert Find(AddTo(t, k, v)[1..], k') == None;
      }
    }
  }

  lemma AddToLookupAll(t: Table, k: string, v: real)
    requires UniqueKeys(t)
    ensures forall k' :: LookupOr(AddTo(t, k, v), k', 0.0) == LookupOr(t, k', 0.0) + (if k' == k then v else 0.0)
  {
    forall k' ensures LookupOr(AddTo(t, k, v), k', 0.0) == LookupOr(t, k', 0.0) + (if k' == k then v else 0.0) {
      AddToLookup(t, k, v, k');
    }
  }

  /** A non-empty table of positive values has a positive total. */
  lemma {:induction false} PositiveTotal(t: Table)
    requires forall j :: 0 <= j < |t| ==> t[j].value > 0.0
    ensures |t| > 0 ==> Total(t) > 0.0
    ensures Total(t) >= 0.0
  {
    if |t| > 0 {
      PositiveTotal(t[1..]);
    }
  }

  /** `part / whole * 100`: `part` as a percentage of `whole`. */
  function PercentOf(part: real, whole: real): real
    requires whole != 0.0
  {
    part / whole * 100.0
  }

  /** Arithmetic helper for the solver: percentages of one whole add up like their parts. */
  lemma PercentSum(a: real, b: real, whole: real)
    requires whole != 0.0
    ensures PercentOf(a, whole) + PercentOf(b, whole) == PercentOf(a + b, whole)
  {
  }

  /** Arithmetic helper for the solver: a whole is 100 per cent of itself. */
  lemma PercentOfWhole(whole: real)
    requires whole != 0.0
    ensures PercentOf(whole, whole) == 100.0
  {
  }

  /** A part between zero and a positive whole is between 0 and 100 per
      cent of it, and scaling the percentage back by the whole gives the
      part times 100. */
  lemma PercentBounds(part: real, whole: real)
    requires 0.0 <= part <= whole && whole != 0.0
    ensures 0.0 <= PercentOf(part, whole) <= 100.0
    ensures PercentOf(part, whole) * whole == part * 100.0
  {
    var q := part / whole;
    assert q * whole == part;
  }

  /** Each value as a percentage of `total`. */
  function Shares(t: Table, total: real): (w: Table)
    requires total != 0.0
    ensures |w| == |t|
  {
    if |t| == 0 then [] else [Entry(t[0].key, PercentOf(t[0].value, total))] + Shares(t[1..], total)
  }

  /** The `Weightage` column every attribution model derives from its
      `Conversions` column: each channel's value as a percentage of the
      column total. An empty column stays empty. */
  function Weightage(t: Table): (w: Table)
    requires t == [] || Total(t) != 0.0
    ensures |w| == |t|
  {
    if t == [] then [] else Shares(t, Total(t))
  }

  lemma {:induction false} SharesTotal(t: Table, total: real)
    requires total != 0.0
    ensures Total(Shares(t, total)) == PercentOf(Total(t), total)
  {
    if |t| > 0 {
      SharesTotal(t[1..], total);
      assert Shares(t, total)[1..] == Shares(t[1..], total);
      PercentSum(t[0].value, Total(t[1..]), total);
    }
  }

  lemma {:induction false} SharesPointwise(t: Table, total: real, i: nat)
    requires total != 0.0 && i < |t|
    ensures Shares(t, total)[i] == Entry(t[i].key, PercentOf(t[i].value, total))
  {
    if i > 0 {
      SharesPointwise(t[1..], total, i - 1);
      assert Shares(t, total)[1..] == Shares(t[1..], total);
    }
  }

  /** The weightage column keeps the keys and the order of the column it was
      derived from, and its values sum to 100 whenever the column has a
      non-zero total. */
  lemma {:induction false} WeightageSumsTo100(t: Table)
    requires Total(t) != 0.0
    ensures Keys(Weightage(t)) == Keys(t)
    ensures Total(Weightage(t)) == 100.0
  {
    SharesTotal(t, Total(t));
    SharesKeys(t, Total(t));
    PercentOfWhole(Total(t));
  }

  lemma {:induction false} SharesKeys(t: Table, total: real)
    requires total != 0.0
    ensures Keys(Shares(t, total)) == Keys(t)
  {
    if |t| > 0 {
      SharesKeys(t[1..], total);
    }
  }

  /** With non-negative values, every weightage lies between 0 and 100, and
      entry i is its value's percentage of the total. */
  lemma {:induction false} WeightageBounds(t: Table, i: nat)
    requires i < |t| && Total(t) != 0.0
    requires forall j :: 0 <= j < |t| ==> t[j].value >= 0.0
    ensures Weightage(t)[i] == Entry(t[i].key, PercentOf(t[i].value, Total(t)))
    ensures 0.0 <= Weightage(t)[i].value <= 100.0
  {
    var total := Total(t);
    SharesPointwise(t, total, i);
    ValueBelowTotal(t, i);
    PercentBounds(t[i].value, total);
  }

  lemma {:induction false} ValueBelowTotal(t: Table, i: nat)
    requires i < |t|
    requires forall j :: 0 <= j < |t| ==> t[j].value >= 0.0
    ensures 0.0 <= t[i].value <= Total(t)
  {
    if i > 0 {
      ValueBelowTotal(t[1..], i - 1);
      TotalNonNegative(t);
    } else {
      TotalNonNegative(t[1..]);
    }
  }

  lemma {:induction false} TotalNonNegative(t: Table)
    requires forall j :: 0 <= j < |t| ==> t[j].value >= 0.0
    ensures Total(t) >= 0.0
  {
    if |t| > 0 {
      TotalNonNegative(t[1..]);
    }
  }

  /** Sum of the values `order` looks up in `t`, 0.0 for a missing key. */
  function ColumnSum(t: Table, order: seq<string>): real
  {
    if |order| == 0 then 0.0 else LookupOr(t, order[0], 0.0) + ColumnSum(t, order[1..])
  }

  /** Looking every key of a duplicate-free `order` up in `t` (0.0 where
      absent) and summing gives the table's total, provided `order` lists all
      keys of `t`. */
  lemma {:induction false} ColumnSumIsTotal(t: Table, order: seq<string>)
    requires UniqueKeys(t) && Distinct(order)
    requires KeySet(t) <= set k | k in order
    ensures ColumnSum(t, order) == Total(t)
  {
    if |t| == 0 {
      ColumnSumEmpty(order);
    } else {
      HeadKeyNotInTail(t);
      KeySetCons(t);
      ColumnSumIsTotal(t[1..], order);
      ColumnSumSplit(t, order);
    }
  }

  lemma {:induction false} ColumnSumEmpty(order: seq<string>)
    ensures ColumnSum([], order) == 0.0
  {
    if |order| > 0 {
      ColumnSumEmpty(order[1..]);
    }
  }

  lemma {:induction false} ColumnSumSplit(t: Table, order: seq<string>)
    requires |t| > 0 && Distinct(order)
    requires t[0].key !in KeySet(t[1..])
    ensures ColumnSum(t, order) == ColumnSum(t[1..], order) + (if t[0].key in order then t[0].value else 0.0)
  {
    if |order| > 0 {
      ColumnSumSplit(t, order[1..]);
      if order[0] == t[0].key {
        FindAbsent(t[1..], t[0].key);
      }
    }
  }
}

=== FILE: tabs.dfy ===
/**
  Tab switching: clicking a tab button makes it the only active button,
  deactivates every tab panel and activates the panel whose id is the
  button's tab name followed by `View`. When no panel has that id the
  lookup yields `null` and the handler throws after the deactivations.
 */
module Tabs {

  datatype TabButton = TabButton(tab: string, active: bool)

  datatype Panel = Panel(id: string, active: bool)

  datatype Tabs = Tabs(buttons: seq<TabButton>, panels: seq<Panel>)

  /** The id of the panel a tab shows. */
  function PanelId(tab: string): (id: string)
    ensures |id| == |tab| + 4 && id[..|tab|] == tab && id[|tab|..] == "View"
  {
    tab + "View"
  }

  /** The index of the first panel with id `id`: the one `getElementById`
      returns. */
  function FirstPanel(panels: seq<Panel>, id: string): (r: nat)
    ensures r <= |panels|
    ensures r < |panels| ==> panels[r].id == id
    ensures forall j :: 0 <= j < r ==> panels[j].id != id
    decreases |panels|
  {
    if |panels| == 0 then 0
    else if panels[0].id == id then 0
    else 1 + FirstPanel(panels[1..], id)
  }

  /** The result of a click on button `b`: the new state and whether the
      handler threw because the panel is missing. */
  datatype Outcome = Outcome(state: Tabs, threw: bool)

  function Click(t: Tabs, b: nat): (o: Outcome)
    requires b < |t.buttons|
    ensures |o.state.buttons| == |t.buttons| && |o.state.panels| == |t.panels|
    ensures forall j :: 0 <= j < |t.buttons| ==>
      o.state.buttons[j].tab == t.buttons[j].tab && (o.state.buttons[j].active <==> j == b)
    ensures forall j :: 0 <= j < |t.panels| ==> o.state.panels[j].id == t.panels[j].id
    ensures o.threw <==> forall j :: 0 <= j < |t.panels| ==> t.panels[j].id != PanelId(t.buttons[b].tab)
    ensures forall j :: 0 <= j < |t.panels| ==>
      (o.state.panels[j].active <==> (!o.threw && j == FirstPanel(t.panels, PanelId(t.buttons[b].tab))))
  {
    var buttons := seq(|t.buttons|, j requires 0 <= j < |t.buttons| => TabButton(t.buttons[j].tab, j == b));
    var cleared := seq(|t.panels|, j requires 0 <= j < |t.panels| => Panel(t.panels[j].id, false));
    var k := FirstPanel(t.panels, PanelId(t.buttons[b].tab));
    if k < |t.panels| then
      Outcome(Tabs(buttons, cleared[k := Panel(t.panels[k].id, true)]), false)
    else
      Outcome(Tabs(buttons, cleared), true)
  }

  /** At most one button and at most one panel are active. */
  predicate SingleActive(t: Tabs)
  {
    && (forall i, j :: 0 <= i < j < |t.buttons| ==> !(t.buttons[i].active && t.buttons[j].active))
    && (forall i, j :: 0 <= i < j < |t.panels| ==> !(t.panels[i].active && t.panels[j].active))
  }

  /** Whatever state the page was in, a click leaves exactly one active
      button and at most one active panel, and the panel shown is the
      clicked button's. */
  lemma {:induction false} ClickLeavesOneActive(t: Tabs, b: nat)
    requires b < |t.buttons|
    ensures var o := Click(t, b);
      && SingleActive(o.state)
      && (forall j :: 0 <= j < |o.state.panels| && o.state.panels[j].active ==>
            o.state.panels[j].id == PanelId(t.buttons[b].tab))
  {
  }

  /** Clicking the same button again changes nothing. */
  lemma {:induction false} ClickIdempotent(t: Tabs, b: nat)
    requires b < |t.buttons|
    ensures Click(Click(t, b).state, b) == Click(t, b)
  {
    var o := Click(t, b);
    var o2 := Click(o.state, b);
    assert o2.state.buttons == o.state.buttons;
    SamePanelIds(t.panels, o.state.panels, PanelId(t.buttons[b].tab));
    assert o2.state.panels == o.state.panels;
  }

  /** The first panel with an id depends only on the panels' ids. */
  lemma {:induction false} SamePanelIds(p1: seq<Panel>, p2: seq<Panel>, id: string)
    requires |p1| == |p2| && forall j :: 0 <= j < |p1| ==> p1[j].id == p2[j].id
    ensures FirstPanel(p1, id) == FirstPanel(p2, id)
    decreases |p1|
  {
    if |p1| > 0 && p1[0].id != id {
      SamePanelIds(p1[1..], p2[1..], id);
    }
  }
}

=== FILE: views.dfy ===
/**
  What the controller derives from the replies it receives: the rows of the
  results and channel-statistics tables, the data handed to the four charts,
  the generated limit inputs, the body of the budget request and the budget
  cards. Markup and number formatting are not modelled; a row or a chart is
  the values it shows.
 */
module Views {
  import opened Tables
  import opened Protocol
  import opened LimitIds

  /** The eight numbers of a results row, in column order: the seven models
      followed by the mean. */
  function ScoreCells(s: Scores): (cells: seq<real>)
    ensures |cells| == 8 && cells[7] == s.mean
  {
    [s.lastTouch, s.firstTouch, s.lastNonDirect, s.linear, s.uShaped, s.positionDecay, s.markov, s.mean]
  }

  datatype ResultRow = ResultRow(channel: string, cells: seq<real>)

  /** The results table, rebuilt from scratch: one row per results key, in key
      order. */
  function ResultRows(results: ResultSet): (rows: seq<ResultRow>)
    ensures |rows| == |results|
    ensures forall i :: 0 <= i < |rows| ==>
      rows[i].channel == results[i].key && rows[i].cells == ScoreCells(results[i].value)
  {
    if |results| == 0 then []
    else [ResultRow(results[0].key, ScoreCells(results[0].value))] + ResultRows(results[1..])
  }

  /** `results[ch] ? results[ch].Mean : 0`: a channel's mean, or 0.0 when the
      results have no entry for it. */
  function MeanOr0(results: ResultSet, ch: string): (m: real)
    ensures ch !in KeySet(results) ==> m == 0.0
    ensures forall i :: 0 <= i < |results| && UniqueKeys(results) && results[i].key == ch ==>
      m == results[i].value.mean
  {
    FindFound(results, ch);
    forall i | 0 <= i < |results| && UniqueKeys(results) && results[i].key == ch
      ensures Find(results, ch) == Some(results[i].value)
    {
      FindPresent(results, i);
    }
    match Find(results, ch)
    case Some(s) => s.mean
    case None => 0.0
  }

  datatype StatsRow = StatsRow(channel: string, stats: ChannelStats, attribution: real)

  /** The channel-statistics table: one row per `channel_stats` key, with the
      channel's mean attribution or 0. */
  function StatsRows(results: ResultSet, channelStats: seq<Entry<ChannelStats>>): (rows: seq<StatsRow>)
    ensures |rows| == |channelStats|
    ensures forall i :: 0 <= i < |rows| ==>
      && rows[i].channel == channelStats[i].key
      && rows[i].stats == channelStats[i].value
      && rows[i].attribution == MeanOr0(results, channelStats[i].key)
  {
    if |channelStats| == 0 then []
    else
      [StatsRow(channelStats[0].key, channelStats[0].value, MeanOr0(results, channelStats[0].key))]
      + StatsRows(results, channelStats[1..])
  }

  /** A point of the performance scatter. */
  datatype Point = Point(x: real, y: real, channel: string)

  /** The performance scatter: one point per `channel_stats` key, at the
      channel's conversion rate and its mean attribution or 0. */
  function ScatterPoints(results: ResultSet, channelStats: seq<Entry<ChannelStats>>): (ps: seq<Point>)
    ensures |ps| == |channelStats|
    ensures forall i :: 0 <= i < |ps| ==>
      ps[i] == Point(channelStats[i].value.conversionRate, MeanOr0(results, channelStats[i].key), channelStats[i].key)
  {
    if |channelStats| == 0 then []
    else
      [Point(channelStats[0].value.conversionRate, MeanOr0(results, channelStats[0].key), channelStats[0].key)]
      + ScatterPoints(results, channelStats[1..])
  }

  /** The table and the scatter show the same channels in the same order,
      with the same attribution values. */
  lemma {:induction false} ScatterMatchesTable(results: ResultSet, channelStats: seq<Entry<ChannelStats>>)
    ensures var rows := StatsRows(results, channelStats);
      var ps := ScatterPoints(results, channelStats);
      && |ps| == |rows|
      && forall i :: 0 <= i < |ps| ==>
           ps[i].channel == rows[i].channel && ps[i].y == rows[i].attribution
           && ps[i].x == rows[i].stats.conversionRate
  {
  }

  /** When the statistics and the results have the same keys, the fallback
      never applies: every statistics row shows the mean of its own channel. */
  lemma {:induction false} FallbackUnused(results: ResultSet, channelStats: seq<Entry<ChannelStats>>)
    requires UniqueKeys(results) && Keys(channelStats) == Keys(results)
    ensures var rows := StatsRows(results, channelStats);
      forall i :: 0 <= i < |rows| ==> rows[i].attribution == results[i].value.mean
  {
    var rows := StatsRows(results, channelStats);
    forall i | 0 <= i < |rows| ensures rows[i].attribution == results[i].value.mean {
      assert Keys(channelStats)[i] == Keys(results)[i];
    }
  }

  /** The data of a chart, whichever slot it sits in. */
  datatype ChartData =
    | Bars(labels: seq<string>, values: seq<real>)
    | GroupedBars(labels: seq<string>, datasets: seq<seq<real>>)
    | Scatter(points: seq<Point>)
    | Doughnut(labels: seq<string>, amounts: seq<real>)

  /** The attribution chart: one bar per results key, at its mean. */
  function AttributionChartData(results: ResultSet): (d: ChartData)
    ensures d.Bars? && d.labels == Keys(results) && |d.values| == |results|
    ensures forall i :: 0 <= i < |results| ==> d.values[i] == results[i].value.mean
  {
    Bars(Keys(results), Values(MeanProjection(results)))
  }

  function Values(t: Table): (vs: seq<real>)
    ensures |vs| == |t| && forall i :: 0 <= i < |t| ==> vs[i] == t[i].value
  {
    if |t| == 0 then [] else [t[0].value] + Values(t[1..])
  }

  /** Column `j` of the results, one value per channel. */
  function Column(results: ResultSet, j: nat): (col: seq<real>)
    requires j < 8
    ensures |col| == |results| && forall i :: 0 <= i < |results| ==> col[i] == ScoreCells(results[i].value)[j]
  {
    if |results| == 0 then [] else [ScoreCells(results[0].value)[j]] + Column(results[1..], j)
  }

  /** The comparison chart: seven datasets, one per model in column order,
      each with one value per results key. */
  function ComparisonChartData(results: ResultSet): (d: ChartData)
    ensures d.GroupedBars? && d.labels == Keys(results) && |d.datasets| == 7
  {
    GroupedBars(Keys(results), seq(7, j requires 0 <= j < 7 => Column(results, j)))
  }

  /** The bars of both attribution charts are the numbers of the results
      table: the comparison chart's dataset `j` is column `j`, the attribution
      chart's bars are the `Mean` column. */
  lemma {:induction false} ChartsMatchTable(results: ResultSet)
    ensures var rows := ResultRows(results);
      var cmp := ComparisonChartData(results);
      var attr := AttributionChartData(results);
      && (forall i, j :: 0 <= i < |rows| && 0 <= j < 7 ==> |cmp.datasets[j]| == |rows| && cmp.datasets[j][i] == rows[i].cells[j])
      && (forall i :: 0 <= i < |rows| ==> attr.values[i] == rows[i].cells[7] && attr.labels[i] == rows[i].channel)
  {
  }

  /** The budget chart: one slice per allocation, in key order. */
  function BudgetChartData(allocations: Table): (d: ChartData)
    ensures d.Doughnut? && d.labels == Keys(allocations)
    ensures |d.amounts| == |allocations| && forall i :: 0 <= i < |allocations| ==> d.amounts[i] == allocations[i].value
  {
    Doughnut(Keys(allocations), Values(allocations))
  }

  /** What a number input holds: nothing, or a number. */
  datatype FieldValue = Blank | Number(value: real)

  /** A generated limit input: the channel it is labelled with, its id and
      what the user typed into it. */
  datatype LimitField = LimitField(channel: string, id: string, value: FieldValue)

  /** The limit inputs `setupChannelLimits` generates, all blank. */
  function LimitFields(channels: seq<string>): (fs: seq<LimitField>)
    ensures |fs| == |channels|
    ensures forall i :: 0 <= i < |fs| ==> fs[i] == LimitField(channels[i], InputId(channels[i]), Blank)
  {
    if |channels| == 0 then []
    else [LimitField(channels[0], InputId(channels[0]), Blank)] + LimitFields(channels[1..])
  }

  /** The position of the first input with the given id. */
  function FirstIndex(fields: seq<LimitField>, id: string): (r: Option<nat>)
    ensures r.None? <==> forall j :: 0 <= j < |fields| ==> fields[j].id != id
    ensures r.Some? ==>
      && r.value < |fields| && fields[r.value].id == id
      && forall j :: 0 <= j < r.value ==> fields[j].id != id
  {
    if |fields| == 0 then None
    else if fields[0].id == id then Some(0)
    else
      match FirstIndex(fields[1..], id)
      case Some(k) => Some(k + 1)
      case None => None
  }

  /** `getElementById`: the first input with the id, in document order. */
  function FindField(fields: seq<LimitField>, id: string): (r: Option<LimitField>)
    ensures r.None? <==> forall j :: 0 <= j < |fields| ==> fields[j].id != id
    ensures r.Some? ==> r.value.id == id && r.value in fields
    ensures r.Some? ==>
      exists k :: 0 <= k < |fields| && fields[k] == r.value && (forall j :: 0 <= j < k ==> fields[j].id != id)
  {
    match FirstIndex(fields, id)
    case Some(k) => Some(fields[k])
    case None => None
  }

  /** The user types `v` into the `i`-th limit input. */
  function EditField(fields: seq<LimitField>, i: nat, v: FieldValue): (r: seq<LimitField>)
    ensures |r| == |fields|
    ensures forall j :: 0 <= j < |r| ==> r[j].channel == fields[j].channel && r[j].id == fields[j].id
    ensures i < |r| ==> r[i].value == v
    ensures forall j :: 0 <= j < |r| && j != i ==> r[j] == fields[j]
  {
    if i < |fields| then fields[i := fields[i].(value := v)] else fields
  }

  /** The number in the input found for `ch`, if that input exists and is not
      blank. */
  function LimitOf(fields: seq<LimitField>, ch: string): Option<real>
  {
    match FindField(fields, InputId(ch))
    case Some(LimitField(_, _, Number(v))) => Some(v)
    case _ => None
  }

  /** `channel_limits`: every channel whose input exists and is not blank,
      mapped to the number in it. */
  function LimitsFrom(channels: seq<string>, fields: seq<LimitField>): (m: map<string, real>)
    ensures forall ch :: ch in m <==> ch in channels && LimitOf(fields, ch).Some?
    ensures forall ch :: ch in m ==> m[ch] == LimitOf(fields, ch).value
  {
    if |channels| == 0 then map[]
    else
      var ch := channels[|channels| - 1];
      var m := LimitsFrom(channels[..|channels| - 1], fields);
      assert forall c :: c in channels <==> c in channels[..|channels| - 1] || c == ch;
      match LimitOf(fields, ch)
      case Some(v) => m[ch := v]
      case None => m
  }

  /** Every generated input is found again by its channel's id. */
  lemma {:induction false} GeneratedFieldsFound(channels: seq<string>, i: nat)
    requires i < |channels|
    ensures FindField(LimitFields(channels), InputId(channels[i])).Some?
  {
    var fs := LimitFields(channels);
    assert fs[i].id == InputId(channels[i]);
  }

  /** Freshly generated inputs are all blank, so they yield no limits. */
  lemma {:induction false} FreshFieldsNoLimits(channels: seq<string>)
    ensures LimitsFrom(channels, LimitFields(channels)) == map[]
  {
    var fs := LimitFields(channels);
    forall ch | ch in channels ensures LimitOf(fs, ch).None? {
      var r := FindField(fs, InputId(ch));
      if r.Some? {
        var i :| 0 <= i < |fs| && fs[i] == r.value;
        assert r.value.value == Blank;
      }
    }
  }

  /** Inputs laid out for `channels` (whatever has been typed into them):
      when no two channels share an id, each channel's limit is the number in
      its own input, and a blank input yields no limit. */
  lemma {:induction false} OwnFieldRead(channels: seq<string>, fields: seq<LimitField>, i: nat)
    requires |fields| == |channels| && i < |channels|
    requires forall j :: 0 <= j < |fields| ==> fields[j].id == InputId(channels[j])
    requires forall j, k :: 0 <= j < k < |channels| ==> InputId(channels[j]) != InputId(channels[k])
    ensures var m := LimitsFrom(channels, fields);
      && (fields[i].value.Number? ==> channels[i] in m && m[channels[i]] == fields[i].value.value)
      && (fields[i].value.Blank? ==> channels[i] !in m)
  {
    var r := FirstIndex(fields, InputId(channels[i]));
    assert fields[i].id == InputId(channels[i]);
    assert r.value == i;
    assert channels[i] in channels;
  }

  /** What the budget box contributes to the request. */
  function BudgetAmount(f: FieldValue): (b: Option<real>)
    ensures b.Some? <==> f.Number?
    ensures f.Number? ==> b.value == f.value
  {
    match f
    case Blank => None
    case Number(v) => Some(v)
  }

  /** The body of the budget request: the budget, the limits of the inputs
      that hold a number, and every results channel's mean. */
  function AssembleRequest(results: ResultSet, fields: seq<LimitField>, budgetBox: FieldValue): (req: BudgetRequest)
    ensures req.budget == BudgetAmount(budgetBox)
    ensures forall ch :: ch in req.channelLimits <==> ch in KeySet(results) && LimitOf(fields, ch).Some?
    ensures forall ch :: ch in req.channelLimits ==> req.channelLimits[ch] == LimitOf(fields, ch).value
    ensures Keys(req.meanAttributions) == Keys(results)
    ensures forall i :: 0 <= i < |results| ==> req.meanAttributions[i].value == results[i].value.mean
  {
    var channels := Keys(results);
    assert forall ch :: ch in channels <==> ch in KeySet(results);
    BudgetRequest(BudgetAmount(budgetBox), LimitsFrom(channels, fields), MeanProjection(results))
  }

  /** A budget card: the channel, its amount, and its share of the budget in
      percent, `None` where that share is not a finite number (a blank or
      zero budget). */
  datatype BudgetCard = BudgetCard(channel: string, amount: real, share: Option<real>)

  function BudgetCards(allocations: Table, budget: Option<real>): (cards: seq<BudgetCard>)
    ensures |cards| == |allocations|
    ensures forall i :: 0 <= i < |cards| ==>
      && cards[i].channel == allocations[i].key
      && cards[i].amount == allocations[i].value
      && (cards[i].share.Some? <==> budget.Some? && budget.value != 0.0)
  {
    if |allocations| == 0 then []
    else
      var share := if budget.Some? && budget.value != 0.0 then Some(PercentOf(allocations[0].value, budget.value)) else None;
      [BudgetCard(allocations[0].key, allocations[0].value, share)] + BudgetCards(allocations[1..], budget)
  }

  /** The shares shown on the cards are the percentage shares of the budget;
      when the allocations add up to the budget, they add up to 100. */
  lemma {:induction false} CardSharesSumTo100(allocations: Table, b: real)
    requires b != 0.0
    ensures var cards := BudgetCards(allocations, Some(b));
      forall i :: 0 <= i < |cards| ==> cards[i].share == Some(Shares(allocations, b)[i].value)
    ensures Total(allocations) == b ==> Total(Shares(allocations, b)) == 100.0
  {
    CardShares(allocations, b);
    SharesTotal(allocations, b);
    if Total(allocations) == b {
      PercentOfWhole(b);
    }
  }

  lemma {:induction false} CardShares(allocations: Table, b: real)
    requires b != 0.0
    ensures var cards := BudgetCards(allocations, Some(b));
      forall i :: 0 <= i < |cards| ==> cards[i].share == Some(Shares(allocations, b)[i].value)
  {
    var cards := BudgetCards(allocations, Some(b));
    forall i | 0 <= i < |cards| ensures cards[i].share == Some(Shares(allocations, b)[i].value) {
      SharesPointwise(allocations, b, i);
      CardShare(allocations, b, i);
    }
  }

  lemma {:induction false} CardShare(allocations: Table, b: real, i: nat)
    requires b != 0.0 && i < |allocations|
    ensures BudgetCards(allocations, Some(b))[i].share == Some(PercentOf(allocations[i].value, b))
  {
    if i > 0 {
      CardShare(allocations[1..], b, i - 1);
      assert BudgetCards(allocations, Some(b))[1..] == BudgetCards(allocations[1..], Some(b));
    }
  }
}
